=== FILE: README.md ===
# Import-graph loader and module visualizer, modelled in Dafny

The system loads a Python repository and draws its module dependency graph.
`load.py` does the loading:

- every discovered `.py` file becomes a `PythonFile` with a dotted `module_id`;
- `RepoLoader.load_repo` first registers one internal `Module` per file in
  the shared `module_store` dict;
- it then calls `load_imports` on every file. Each import statement is
  resolved to a store entry, and `create_if_not_exist` adds an external
  module for an unknown absolute import;
- `PythonFile.loc` counts the logical lines of a file, using `is_loc` and
  a `_loc` cache.

`visualizer.py` turns the loaded repository into a graph:

- `ModuleVisualizer` splits the store into internal and external modules;
- it builds three `Normalizer`s: colour by import count for each kind, and
  node size by line count;
- `_add_node` chooses each node's fill, size, shape and label;
- `visualize` adds nodes for the chosen modules and one edge for each
  drawn import.

The Dafny project models this core as pure functions over immutable data:

| file | module | what it holds |
|---|---|---|
| `wrappers.dfy` | `Wrappers` | `Option` and `Result` |
| `strings.dfy` | `Strings` | The Python string operations the loader uses: `join`, `split(".")[0]`, `replace`, `strip`, `splitlines` |
| `source_files.dfy` | `SourceFiles` | `PythonFile`: `module_id`, `is_loc`, `loc` and its cache |
| `module_store.dfy` | `ModuleStore` | `Module`, `ModuleTypes` and the insertion-ordered `module_store` dict |
| `imports.dfy` | `Imports` | `load_imports` and `create_if_not_exist` |
| `loader.dfy` | `Loader` | `load_repo`: register all files, then resolve every file's imports |
| `normalizers.dfy` | `Normalizers` | `Normalizer` over exact reals |
| `visualizer.dfy` | `Visualizer` | `ModuleVisualizer.__init__`, `_add_node` and the node and edge selection of `visualize` |
| `scenarios.dfy` | `Scenarios` | Worked examples on a two-file repository and small samples |

Python exceptions become `Failure` values:

- a `KeyError` from a missing relative import target becomes
  `Imports.LoadError.KeyError(key)`;
- the `AttributeError` of `None.split` becomes `NoneModuleName`;
- the `ValueError` of `min([])` becomes `Normalizers.NormError.EmptyData`;
- a `ZeroDivisionError` in `normalize` becomes `DivisionByZero`.

The project does not model an `import_count` field. `load.py` never defines
or sets one, but `visualizer.py` reads it at lines 38, 54 and 87. The model
takes it as a parameter `importCount: string -> int` of the visualizer.

### Behaviour of load.py and visualizer.py worth knowing

- **Missing relative import.** A relative import whose key is not in the
  store raises `KeyError` (`module_store[module_name]`, load.py:75).
  `Loader.LoadRepoKeyError` states when this happens.
  `Scenarios.ToyRepoRelativeSiblingFails` shows a top-level `from .b import x`
  failing with key `".b"`.
- **`from . import x` and `from .m import x`.** `from . import x` looks up
  the package itself (`pkg`), and `from .m import x` looks up `pkg.m`.
  The names after `import` are never used.
- **Absolute imports.** An absolute `from a.b import x` is keyed by `a`,
  because `create_if_not_exist` keeps only the first segment. Whatever the
  store already holds under that key is returned, even an internal module.
- **".py" inside a path.** `module_id` removes every ".py" from the joined
  path (`.replace(".py", "")`, load.py:14), not only the extension. A
  directory `d.py` contributes only `d` (`SourceFiles.ModuleIdOfPyDirectory`).
  The dot between two segments also starts a ".py" when the next segment
  begins with "py": `pkg/pyutils.py` gets the id "pkgutils"
  (`SourceFiles.ModuleIdOfPyutils`, `SourceFiles.ModuleIdOfPySegment`).
- **Import counts.** No counter is ever incremented. Calling `load_imports`
  again rebuilds the same list and leaves the store unchanged
  (`Imports.LoadImportsIdempotent`).
- **Degenerate normalizer.** `Normalizer` has no guard for `max == min`, so
  `normalize` divides by zero. For a visualizer built from a loaded
  repository, with the default options, `visualize` therefore fails in
  exactly three cases (`Visualizer.VisualizeFailsOnEqualSamples`):
  - every internal module has the same import count;
  - every file has the same line count;
  - every external module has the same import count.

  In particular, a repository with a single file, or with a single external
  module, cannot be drawn without a given colour and size
  (`Visualizer.VisualizeFailsOnOneExternal`). The two-file example of
  `Scenarios` is such a repository: with the defaults it fails whatever the
  import counts (`Scenarios.ToyVisualizeFails`), and it is drawn only once
  `ext_color` is given (`Scenarios.ToyVisualizeGray`).

## Model

| member | source | states |
|---|---|---|
| Strings.Join | load.py:14 | The first part is a prefix of the joined text. With more than one part a separator follows it; a single part is returned as it is |
| Strings.JoinSnoc | load.py:14 | Joining one more part appends the separator and that part |
| Strings.DropLast | load.py:16 | `xs[:-n]` keeps a prefix of length `len(xs) - n`, or nothing when `n` reaches the length |
| Strings.Head | load.py:53 | `s.split(".")[0]` is a prefix of `s` without '.', and a '.' follows it whenever it is shorter than `s` |
| Strings.HeadOfDotted | load.py:53 | The head of a dotted name is its first segment |
| Strings.RemoveAll | load.py:14 | `replace(pat, "")` never lengthens the text and leaves text without `pat` unchanged |
| Strings.RemoveAllPySuffix | load.py:14 | A trailing ".py" disappears and the rest is processed as if it were absent |
| Strings.RemoveAllInfix | load.py:14 | For a pattern that cannot overlap itself, `replace` cleans the text before and after any occurrence independently |
| Strings.RemoveAllPyInfix | load.py:14 | An occurrence of ".py" anywhere splits `replace(".py", "")` into the cleaned text before it and the cleaned text after it |
| Strings.LStrip | load.py:40 | The result is a suffix after only whitespace, and starts with non-whitespace |
| Strings.RStrip | load.py:40 | The result is a prefix followed by only whitespace, and ends with non-whitespace |
| Strings.Strip | load.py:40 | Empty exactly for all-whitespace text; otherwise neither end is whitespace |
| Strings.StripPadded | load.py:40 | Leading whitespace does not change what `lstrip` or `strip` keeps |
| Strings.SplitLinesRoundTrip | load.py:32 | Text with only "\n" breaks is recovered from its `splitlines()` up to a final "\n" |
| Strings.UnlinesRoundTrip | load.py:32 | Lines without breaks, written out with "\n", split back into the same lines |
| SourceFiles.ModuleIdOfPlainFile | load.py:14 | `d1/.../dn/m.py` gets the id `d1. ... .dn.m` when the joined text `d1. ... .dn.m` contains no ".py" |
| SourceFiles.ModuleIdOfInit | load.py:15-16 | `d1/.../dn/__init__.py` gets the package id `d1. ... .dn`; a top-level one gets "" |
| SourceFiles.ModuleIdRemovesInnerPy | load.py:14 | For any non-`__init__` path whose joined text is `a + ".py" + b`, the id is the cleaned `a` followed by the cleaned `b`: ".py" is removed anywhere, not only at the end |
| SourceFiles.ModuleIdOfPyDirectory | load.py:14 | A directory named `d.py` contributes only `d`: `d.py/m.py` gets id `d.m` |
| SourceFiles.ModuleIdOfPySegment | load.py:14 | For dot-free `d` and `m`, `d/pym.py` gets the id `dm`: the dot before a segment starting with "py" is removed with it |
| SourceFiles.ModuleIdOfPyutils | load.py:14 | `pkg/pyutils.py` gets the id "pkgutils", not "pkg.pyutils" |
| SourceFiles.OnlyClosingBrackets | load.py:45 | On a stripped line, the regex `^[\)\]\}]*$` accepts exactly the strings made of closing brackets |
| SourceFiles.IsLoc | load.py:36-47 | A line counts iff its stripped form is non-empty, does not start with '#', is not a bare ''' or """, and has a non-bracket character |
| SourceFiles.BlankLineIsNotLoc | load.py:38-40 | Empty and whitespace-only lines are not lines of code |
| SourceFiles.CommentLineIsNotLoc | load.py:40-42 | An indented comment line is not a line of code |
| SourceFiles.SpacedBracketsAreLoc | load.py:45-47 | `) )` counts, since only an unbroken run of brackets is excluded |
| SourceFiles.LocLinesKeepsLinesOfCode | load.py:32 | The filter keeps every line of code as often as it occurs, and nothing else |
| SourceFiles.LocOfLines | load.py:29-34 | `loc` of written-out lines is the number of them that are lines of code, at most the number of lines |
| SourceFiles.CachedLoc | load.py:28-34 | The property returns the true count and leaves it cached |
| SourceFiles.CachedLocIsStable | load.py:28-34 | Asking a second time gives the same count and cache |
| ModuleStore.Put | load.py:126-128 | Dict assignment: a new key goes last, an existing key keeps its place and takes the new value |
| ModuleStore.ValuesPut | visualizer.py:34 | `values()` follows insertion order: a new key's module is appended, and storing under an existing key replaces its module in place |
| ModuleStore.ValuesAreStored | visualizer.py:34 | `values()` holds exactly the stored modules |
| Imports.Targets | load.py:58-75 | A file makes one reference per plain-import name and one per `from` import |
| Imports.LookupComesFromRelativeImport | load.py:67-75 | Only a relative `from` import makes a direct store lookup |
| Imports.CreateIfNotExist | load.py:52-56 | Keyed by the first segment; an absent key gains a new external module at the end, a present one is returned untouched whatever its kind |
| Imports.ResolveTarget | load.py:59-75 | One reference returns the store's entry for its key; the store only grows, by external modules without '.' |
| Imports.ResolveTargets | load.py:58-75 | One module per reference; the store only grows, each new key an external module without '.' |
| Imports.ResolveTargetsEntries | load.py:56 | Each returned module is the final store's entry for its reference's key |
| Imports.ResolveTargetsKeepsIds | load.py:55 | Every key still maps to the module with that id |
| Imports.ResolveTargetsFailure | load.py:64-75 | A `KeyError` names a looked-up key absent from the initial store; the other failure needs a nameless absolute `from` |
| Imports.ResolveTargetsSucceedsIff | load.py:58-75 | Resolution succeeds iff every lookup's key is stored or created earlier in the same run, and no reference is nameless |
| Imports.ResolveTargetsAgain | load.py:49-76 | Against any store agreeing with the result, resolution returns the same modules and changes nothing |
| Imports.LoadImports | load.py:49-76 | `load_imports` returns one module per reference, each the store's own entry. The store only grows. A `KeyError` key is a relative key of the file that the store lacked |
| Imports.LoadImportsAddsExternals | load.py:52-56 | The only modules `load_imports` adds are external first segments |
| Imports.LoadImportsAgain | load.py:49-76 | Against any store keeping the first call's entries, the same list comes back and nothing is added |
| Imports.LoadImportsIdempotent | load.py:50 | A second call returns the same list and store as the first |
| Imports.AbsoluteImportsUseFirstSegment | load.py:59-66 | `import a.b.c` and `from a.b import x` both refer to key `a` |
| Imports.RelativeImportOfPackage | load.py:68-74 | `from . import x` names the id of the importing package's `__init__.py` |
| Imports.RelativeImportOfSibling | load.py:68-72 | `from .m import x` names the id of the sibling `m.py` |
| Imports.RelativeImportAtTopLevel | load.py:68-72 | In a top-level file `from .m import x` looks up ".m", which differs from the id "m" |
| Loader.Register | load.py:125-128 | Every file id is stored as an internal module naming the last file with that id; nothing else is stored |
| Loader.ResolveFrom | load.py:130-131 | One import list per remaining file; the store only grows |
| Loader.ResolveFromImports | load.py:130-131 | Each list has one module per reference, and every listed module is the final store's entry for its id |
| Loader.ResolveFromIdempotent | load.py:130-131 | Against the final store, `load_imports` of every file returns that file's list and changes nothing |
| Loader.ResolveFromAddsExternals | load.py:130-131 | Resolution adds only external first-segment modules |
| Loader.ResolveFromFailure | load.py:130-131 | A `KeyError` names a relative key of some file that was absent when resolution began |
| Loader.ResolveFromSucceeds | load.py:130-131 | Resolution succeeds when no file has a nameless absolute `from` and every relative key is already stored |
| Loader.NoNameComesFromNamelessImport | load.py:64-65 | A nameless reference comes from a `from` import with no dots and no module |
| Loader.ResolvedWellFormed | load.py:124-131 | Registering then resolving leaves a well-formed repository: file ids internal, internal entries naming their file, externals fileless, imports being store entries |
| Loader.RegisteredIdsKept | load.py:125-131 | Resolution keeps every file's registration |
| Loader.RegisteredInternals | load.py:125-131 | After resolution, internal entries name a file with their id and external entries are fileless first segments |
| Loader.LoadRepo | load.py:117-131 | A successful load keeps the files and is well formed |
| Loader.LoadRepoImportCounts | load.py:58-66 | Each file's `imports` has one module per plain-import name and per `from` import |
| Loader.LoadRepoLastFileWins | load.py:125-128 | When ids collide, the store keeps the module of the last file with that id |
| Loader.LoadRepoKeyError | load.py:75 | Loading fails with `KeyError` only on a relative key that is no file's id |
| Loader.LoadRepoSucceeds | load.py:117-131 | Loading succeeds when every relative key is some file's id and no absolute `from` is nameless |
| Loader.LoadRepoImportsIdempotent | load.py:130-131 | After loading, `load_imports` on any file returns its recorded list and leaves the store as it is |
| Normalizers.Minimum | visualizer.py:10 | `min` returns a sample no larger than any sample |
| Normalizers.Maximum | visualizer.py:11 | `max` returns a sample no smaller than any sample |
| Normalizers.MakeNormalizer | visualizer.py:8-15 | Fails iff the data are empty; otherwise the observed range is the samples' min and max, with the target range kept |
| Normalizers.Normalize | visualizer.py:17-20 | Fails iff `max == min`; otherwise the result is in the same proportion to the target range as the value to the observed range |
| Normalizers.NormalizeEndpoints | visualizer.py:17-20 | The observed min goes to `new_min` and the observed max to `new_max` |
| Normalizers.NormalizeMonotone | visualizer.py:17-20 | For an increasing target range, `normalize` never decreases, for any two values in order |
| Normalizers.NormalizeInRange | visualizer.py:17-20 | Values of the observed range land in the target range |
| Normalizers.SamplesInRange | visualizer.py:8-20 | A normalizer is degenerate iff all samples are equal; otherwise every sample lands in the target range |
| Visualizer.OfKind | visualizer.py:32-36 | The list holds exactly the given modules of the kind |
| Visualizer.OfKindAppend | visualizer.py:32-36 | The comprehension keeps the given order: over two lists in a row it yields the first list's modules of the kind, then the second's |
| Visualizer.OfKindAfterPut | visualizer.py:32-36 | In store order, a module stored under a new key comes after every earlier module of its kind, and a module of another kind changes nothing |
| Visualizer.OfKindPartition | visualizer.py:32-36 | The internal and external lists together are a permutation of the store's values |
| Visualizer.MakeVisualizer | visualizer.py:24-57 | Construction fails only with `ValueError`, and keeps the repository |
| Visualizer.MakeVisualizerFails | visualizer.py:32-57 | Construction fails iff the store has no internal module, there is no file, or the store has no external module |
| Visualizer.KindPresent | visualizer.py:32-36 | The list of a kind is empty iff the store has no module of that kind |
| Visualizer.MakeVisualizerConsistent | visualizer.py:24-57 | A visualizer built from a loaded repository satisfies every invariant of `__init__` |
| Visualizer.MakeVisualizerSplits | visualizer.py:32-52 | `int_modules` and `ext_modules` are exactly the stored modules of each kind |
| Visualizer.MakeVisualizerScales | visualizer.py:37-57 | Sizes scale every file's loc onto [0.2, 1], and colours scale every module's count onto [0, 1] |
| Visualizer.VisualizerOfLoadedRepo | visualizer.py:24-57 | A loaded repository can be visualized iff it has a file and some external module |
| Visualizer.NodeColor | visualizer.py:80-88 | A truthy colour is used as given. Otherwise the fill is a position on the given colour map, and it fails iff the kind's normalizer is degenerate |
| Visualizer.NodeColorMonotone | visualizer.py:80-88 | Without a given colour, a module with no more imports than another of its kind is looked up no further along the colour map |
| Visualizer.NodeColorEnds | visualizer.py:80-88 | Without a given colour, a module at the smallest count of its kind's range is looked up at 0 and one at the largest at 1 |
| Visualizer.NodeSize | visualizer.py:90-94 | A truthy size is used as given. Otherwise externals take the mean size, and internals fail iff the size normalizer is degenerate |
| Visualizer.NodeSizeMonotone | visualizer.py:90-92 | Without a given size, an internal node whose file has no more lines of code than another's is drawn no larger |
| Visualizer.NodeSizeEnds | visualizer.py:90-92 | Without a given size, a file at the smallest line count of the range is drawn at 0.2 and one at the largest at 1 |
| Visualizer.AddNode | visualizer.py:69-110 | The node has the module id, the chosen fill, height = width = size × adjuster, circle iff internal, and the label or the xlabel |
| Visualizer.InternalNodeSize | visualizer.py:90-92 | An unsized internal node is between 0.2 and 1 |
| Visualizer.ColorPositionInRange | visualizer.py:80-88 | An uncoloured node is looked up at a colour-map position in [0, 1] |
| Visualizer.AddNodes | visualizer.py:176-198 | The nodes of a list, one per module in order, failing iff one of them fails |
| Visualizer.ImportEdges | visualizer.py:201-224 | At most one edge per import |
| Visualizer.ImportEdgesMembership | visualizer.py:201-224 | An edge leaves a file iff one of its imports is drawn in the edge's colour |
| Visualizer.FileEdgesMembership | visualizer.py:200-224 | The edges of all files are the union of each file's edges |
| Visualizer.DrawNodes | visualizer.py:176-198 | One node per drawn module: the internals, then the externals when included, with matching ids and shapes |
| Visualizer.Visualize | visualizer.py:112-224 | `visualize` fails only by division by zero |
| Visualizer.DrawnModulesAreStored | visualizer.py:176-198 | The drawn modules are exactly the stored internals, plus the stored externals when included |
| Visualizer.VisualizeNodes | visualizer.py:176-198 | A node exists for id `k` iff `k` is stored and is internal or externals are included; circles are exactly the internal ones |
| Visualizer.VisualizeEdges | visualizer.py:200-224 | An edge exists iff some file imports its target, from the file's id, blue for an internal target when internals are included, red for an external one when externals are |
| Visualizer.EdgesBetweenNodes | visualizer.py:200-224 | Both ends of every edge are nodes of the graph |
| Visualizer.VisualizeFails | visualizer.py:176-198 | Without a given colour or size, `visualize` of any consistent visualizer with modules of both kinds fails iff the internal colour normalizer, the size normalizer, or (when externals are included) the external colour normalizer is degenerate |
| Visualizer.CountsDegenerate | visualizer.py:8-20 | A colour normalizer built from modules' counts is degenerate iff all of them share one count |
| Visualizer.LocsDegenerate | visualizer.py:8-20 | The size normalizer built from the files' line counts is degenerate iff all files share one count |
| Visualizer.VisualizeFailsOnEqualSamples | visualizer.py:176-198 | For a visualizer built from a loaded repository by `__init__`, without a given colour or size, `visualize` fails iff all internal modules share one import count, all files share one line count, or (when externals are included) all external modules share one import count |
| Visualizer.VisualizeFailsOnOneExternal | visualizer.py:186-198 | A loaded repository with exactly one external module cannot be drawn with the default options: `visualize` raises `ZeroDivisionError` |
| Visualizer.VisualizeWithExtColor | visualizer.py:174-198 | With `ext_color` given and no internal colour or size, `visualize` of a consistent visualizer fails iff the internal colour normalizer or the size normalizer is degenerate; external nodes never fail |
| Visualizer.VisualizeOnDistinctSamples | visualizer.py:174-224 | For a visualizer built from a loaded repository, with `ext_color` given, `visualize` succeeds iff internal import counts differ somewhere and line counts differ somewhere, and then its edges are those of the edge loop |
| Scenarios.RelativeKeysInSubpackage | load.py:67-74 | In `pkg/sub/mod.py`: `from . import` means `pkg.sub`, `from .. import` means `pkg`, `from .x import` means `pkg.sub.x` |
| Scenarios.ToyModuleIds | load.py:14 | `a.py` and `b.py` have ids `a` and `b` |
| Scenarios.NormalizeMidpoint | visualizer.py:17-20 | Samples 1, 2, 3 scaled onto [0, 10] send 2 to 5 |
| Scenarios.NormalizeEqualSamples | visualizer.py:17-20 | Samples 5, 5, 5 make `normalize(5)` divide by zero |
| Scenarios.ToyRepoRelativeSiblingFails | load.py:67-75 | A top-level `a.py` with `from .b import x` fails to load with `KeyError(".b")` |
| Scenarios.ToyRepoAbsoluteSibling | load.py:117-131 | With `from b import x` instead, `a` imports the new external `os` and the internal `b`, and `b` imports nothing |
| Scenarios.ToyRepoEdges | visualizer.py:200-224 | The edge loop of `visualize`, under any options drawing both kinds, selects a red edge a→os then a blue edge a→b from the toy repository's imports |
| Scenarios.ToyVisualizeFails | visualizer.py:186-198 | With the default options `visualize` fails on the loaded toy repository for every import count: `os` is its only external module |
| Scenarios.ToyVisualizeGray | visualizer.py:174-224 | With `ext_color="gray"` and import counts that tell `a` from `b`, `visualize` draws the toy repository, with edges a→os (red) then a→b (blue) |
| Scenarios.ToyLocs | load.py:30-47 | `a.py` ("import os", "from b import x") has two lines of code and the empty `b.py` none |

## Left out

- Cloning the repository and listing files (load.py:109-115, 118-122) are
  file-system and network I/O. The list of discovered files is an input:
  each file's path segments, its text, and its statements.
- Parsing (`ast.parse`, `ast.walk`, load.py:22-26, 58) is not modelled. A
  file's import statements are an input, in walk order.
- Test files (load.py:133-134) are listed but never resolved or drawn.
- `RepoLoader.__init__` (load.py:93-107) stores the URL and paths, and starts
  with empty `files` and `test_files` and an empty `modules_store`. The model
  keeps only that empty store: `Loader.LoadRepo` starts from it. The
  `__main__` demonstration blocks of load.py, graph.py, run.py,
  src/run.py and main.py are not part of this model.
- `PythonFile.name` is taken as the last path segment, which is what
  `rglob` yields.
- `_get_node_color` (visualizer.py:59-67) needs matplotlib colour maps and
  `rgb2hex`. A node's fill records the colour given, or the colour map and
  the position it would be looked up at.
- Graphviz calls are not modelled:
  - graph attributes, `fixedsize`, `style` and `pad`;
  - `**kwargs`;
  - `layout` and `draw` (visualizer.py:131-136, 226-227).
  The output file, `graph_layout` and `padding` are therefore not options.
- Visualizer.Visualize: the graph is the sequence of `add_node` and
  `add_edge` calls. A strict graph would merge repeated edges. The
  node and edge lemmas are stated as membership, so they hold either way.
- Loader.LoadRepo: on `KeyError` the model returns only the error. The
  source has already mutated the store and some files' `imports`, and
  the model does not return that partial state.
- Loader.LoadRepo: models one `load_repo` call on a fresh loader, whose
  store starts empty. A second call on the same loader starts from the
  store the first call left behind, and that is not modelled.
- Numbers are exact reals, with no floating-point rounding.
- Visualizer.ImportCounts: `import_count` is a parameter, because the
  loader never sets it; the source as written raises `AttributeError`
  at that read.
- SourceFiles.CachedLoc: the cache is assumed to hold either nothing or the
  true count, since only the property writes it. A cached 0 is recounted,
  as `if not self._loc` does.
- Visualizer.NodeSize: requires that an internal module names one of the
  files. Every loaded repository satisfies this. In the source, a module
  without a file would raise `AttributeError`.

=== FILE: imports.dfy ===
/** `PythonFile.load_imports` of load.py: resolving each import statement of a
    file to an entry of the shared module store. */
module Imports {
  import opened Wrappers
  import opened Strings
  import opened SourceFiles
  import opened ModuleStore

  /** Why `load_imports` stops: a relative import whose key is absent from the
      store (`KeyError`), or an absolute `from` import without a module name,
      whose `None` cannot be split (`AttributeError`). */
  datatype LoadError = KeyError(key: string) | NoneModuleName

  /** What one imported reference asks of the store. `Create(name)` is
      `create_if_not_exist(name)`; `Lookup(key)` is `module_store[key]`;
      `NoName` is `create_if_not_exist(None)`. */
  datatype Target =
    | Create(name: string)
    | Lookup(key: string)
    | NoName

  /** The store key a target reads. */
  function KeyOf(t: Target): string
    requires !t.NoName?
  {
    match t
    case Create(name) => Head(name)
    case Lookup(key) => key
  }

  /** The key of `from <dots><m> import ...` with `level` dots in a file with
      path segments `parts`: the segments without the last `level` joined with
      '.', then ".m" when `m` is present and non-empty. */
  function RelativeKey(parts: seq<string>, level: nat, moduleName: Option<string>): string
    requires level > 0
  {
    var base := Join(DropLast(parts, level), '.');
    if moduleName.Some? && moduleName.value != "" then base + "." + moduleName.value else base
  }

  /** The references one statement makes, in order: one per name of a plain
      import, exactly one for a `from` import however many names it lists. */
  function StmtTargets(parts: seq<string>, stmt: ImportStmt): seq<Target>
  {
    match stmt
    case Import(names) => seq(|names|, i requires 0 <= i < |names| => Create(names[i]))
    case ImportFrom(level, moduleName) =>
      if level == 0 then (if moduleName.None? then [NoName] else [Create(moduleName.value)])
      else [Lookup(RelativeKey(parts, level, moduleName))]
  }

  /** How many entries a statement list adds to `imports`: the number of names
      of each plain import, one for each `from` import. */
  function Arity(stmts: seq<ImportStmt>): nat
  {
    if stmts == [] then 0
    else (match stmts[0] case Import(names) => |names| case ImportFrom(_, _) => 1) + Arity(stmts[1..])
  }

  /** The references of all statements of a file, in walk order. */
  function Targets(parts: seq<string>, stmts: seq<ImportStmt>): (ts: seq<Target>)
    ensures |ts| == Arity(stmts)
  {
    if stmts == [] then [] else StmtTargets(parts, stmts[0]) + Targets(parts, stmts[1..])
  }

  /** A lookup among a file's references comes from a relative `from` import. */
  lemma {:induction false} LookupComesFromRelativeImport(parts: seq<string>, stmts: seq<ImportStmt>, k: string)
    requires Lookup(k) in Targets(parts, stmts)
    ensures exists j :: 0 <= j < |stmts| && stmts[j].ImportFrom? && stmts[j].level > 0
                        && RelativeKey(parts, stmts[j].level, stmts[j].moduleName) == k
  {
    var head := StmtTargets(parts, stmts[0]);
    if Lookup(k) in head {
      assert stmts[0].ImportFrom? && stmts[0].level > 0;
    } else {
      assert Lookup(k) in Targets(parts, stmts[1..]);
      LookupComesFromRelativeImport(parts, stmts[1..], k);
      var j :| 0 <= j < |stmts[1..]| && stmts[1..][j].ImportFrom? && stmts[1..][j].level > 0
               && RelativeKey(parts, stmts[1..][j].level, stmts[1..][j].moduleName) == k;
      assert stmts[j + 1] == stmts[1..][j];
    }
  }

  /** `create_if_not_exist(name)`: the key is the part of `name` before its
      first '.'; an absent key gets a new external module, a present one is
      returned untouched, whatever its kind. */
  function CreateIfNotExist(s: Store, name: string): (r: (Module, Store))
    requires Valid(s)
    ensures Valid(r.1) && Extends(s, r.1)
    ensures Head(name) in r.1.entries && r.0 == r.1.entries[Head(name)]
    ensures Head(name) in s.entries ==> r.1 == s
    ensures Head(name) !in s.entries ==> r.0 == Module(Head(name), External, None) && r.1.order == s.order + [Head(name)]
  {
    var key := Head(name);
    if key in s.entries then (s.entries[key], s)
    else
      var m := Module(key, External, None);
      (m, Put(s, key, m))
  }

  /** One reference resolved against the store. */
  function ResolveTarget(t: Target, s: Store): (r: Result<(Module, Store), LoadError>)
    requires Valid(s)
    ensures r.Success? ==> Valid(r.value.1) && Extends(s, r.value.1)
    ensures r.Success? ==> forall k :: k in r.value.1.entries && k !in s.entries ==>
              r.value.1.entries[k] == Module(k, External, None) && '.' !in k
    ensures r.Success? ==> !t.NoName? && KeyOf(t) in r.value.1.entries && r.value.0 == r.value.1.entries[KeyOf(t)]
  {
    match t
    case Create(name) => Success(CreateIfNotExist(s, name))
    case Lookup(key) => if key in s.entries then Success((s.entries[key], s)) else Failure(KeyError(key))
    case NoName => Failure(NoneModuleName)
  }

  /** The references resolved in order against a store that grows as they go:
      on success one module per reference, and a store that has only grown,
      every key it gained being an external module whose id has no '.'. */
  function ResolveTargets(ts: seq<Target>, s: Store): (r: Result<(seq<Module>, Store), LoadError>)
    requires Valid(s)
    ensures r.Success? ==> Valid(r.value.1) && Extends(s, r.value.1)
    ensures r.Success? ==> |r.value.0| == |ts|
    ensures r.Success? ==> forall k :: k in r.value.1.entries && k !in s.entries ==>
              r.value.1.entries[k] == Module(k, External, None) && '.' !in k
    decreases |ts|
  {
    if ts == [] then Success(([], s))
    else
      match ResolveTarget(ts[0], s)
      case Failure(e) => Failure(e)
      case Success((m, s1)) =>
        match ResolveTargets(ts[1..], s1)
        case Failure(e) => Failure(e)
        case Success((ms, s2)) =>
          ExtendsTransitive(s, s1, s2);
          Success(([m] + ms, s2))
  }

  /** Each resolved module is the one the final store holds under its
      reference's key: what was created or found stays in the store. */
  lemma {:induction false} ResolveTargetsEntries(ts: seq<Target>, s: Store)
    requires Valid(s)
    requires ResolveTargets(ts, s).Success?
    ensures var r := ResolveTargets(ts, s).value;
            forall j :: 0 <= j < |ts| ==> !ts[j].NoName? && KeyOf(ts[j]) in r.1.entries && r.0[j] == r.1.entries[KeyOf(ts[j])]
    decreases |ts|
  {
    if ts != [] {
      var r0 := ResolveTarget(ts[0], s);
      var m := r0.value.0;
      var s1 := r0.value.1;
      var rest := ResolveTargets(ts[1..], s1);
      ResolveTargetsEntries(ts[1..], s1);
      var ms := rest.value.0;
      var s2 := rest.value.1;
      assert ResolveTargets(ts, s).value == ([m] + ms, s2);
      forall j | 0 < j < |ts|
        ensures !ts[j].NoName? && KeyOf(ts[j]) in s2.entries && ([m] + ms)[j] == s2.entries[KeyOf(ts[j])]
      {
        assert ts[j] == ts[1..][j - 1];
        assert ([m] + ms)[j] == ms[j - 1];
      }
    }
  }

  /** Resolution keeps every key mapped to the module of that id. */
  lemma ResolveTargetsKeepsIds(ts: seq<Target>, s: Store)
    requires Valid(s) && IdsMatch(s)
    requires ResolveTargets(ts, s).Success?
    ensures IdsMatch(ResolveTargets(ts, s).value.1)
  {
  }

  /** A failure is a `KeyError` for a looked-up key the initial store lacked,
      or the unsplittable `None` of a nameless absolute import. */
  lemma {:induction false} ResolveTargetsFailure(ts: seq<Target>, s: Store)
    requires Valid(s)
    requires ResolveTargets(ts, s).Failure?
    ensures ResolveTargets(ts, s).error.KeyError? ==>
              ResolveTargets(ts, s).error.key !in s.entries && Lookup(ResolveTargets(ts, s).error.key) in ts
    ensures ResolveTargets(ts, s).error.NoneModuleName? ==> NoName in ts
    decreases |ts|
  {
    var r0 := ResolveTarget(ts[0], s);
    if r0.Success? {
      var s1 := r0.value.1;
      ResolveTargetsFailure(ts[1..], s1);
      assert ResolveTargets(ts, s) == ResolveTargets(ts[1..], s1);
      var e := ResolveTargets(ts, s).error;
      if e.KeyError? {
        assert Lookup(e.key) in ts[1..];
        assert e.key !in s1.entries;
      }
      if e.NoneModuleName? {
        assert NoName in ts[1..];
      }
    }
  }

  /** Whether the `j`th reference can be resolved: a lookup needs its key in
      the initial store or created by an earlier reference of the same run. */
  predicate ResolvableAt(ts: seq<Target>, j: nat, s: Store)
    requires j < |ts|
  {
    match ts[j]
    case Create(_) => true
    case NoName => false
    case Lookup(k) => k in s.entries || exists i :: 0 <= i < j && ts[i].Create? && Head(ts[i].name) == k
  }

  /** After the first reference is resolved, the rest are resolvable against
      the grown store exactly when they were resolvable in the whole run. */
  lemma ResolvableShift(ts: seq<Target>, s: Store, s1: Store, j: nat)
    requires 0 < |ts| && !ts[0].NoName? && j + 1 < |ts|
    requires forall k :: k in s1.entries <==> k in s.entries || (ts[0].Create? && Head(ts[0].name) == k)
    ensures ResolvableAt(ts[1..], j, s1) <==> ResolvableAt(ts, j + 1, s)
  {
    assert ts[1..][j] == ts[j + 1];
    if ts[j + 1].Lookup? {
      var k := ts[j + 1].key;
      if exists i :: 0 <= i < j && ts[1..][i].Create? && Head(ts[1..][i].name) == k {
        var i :| 0 <= i < j && ts[1..][i].Create? && Head(ts[1..][i].name) == k;
        assert ts[i + 1] == ts[1..][i];
      }
      if exists i :: 0 <= i < j + 1 && ts[i].Create? && Head(ts[i].name) == k {
        var i :| 0 <= i < j + 1 && ts[i].Create? && Head(ts[i].name) == k;
        if i > 0 {
          assert ts[1..][i - 1] == ts[i];
        }
      }
    }
  }

  /** Resolution succeeds exactly when every reference is resolvable. */
  lemma {:induction false} ResolveTargetsSucceedsIff(ts: seq<Target>, s: Store)
    requires Valid(s)
    ensures ResolveTargets(ts, s).Success? <==> forall j :: 0 <= j < |ts| ==> ResolvableAt(ts, j, s)
    decreases |ts|
  {
    if ts != [] {
      var r0 := ResolveTarget(ts[0], s);
      if r0.Failure? {
        assert !ResolvableAt(ts, 0, s);
      } else {
        var s1 := r0.value.1;
        assert ResolveTargets(ts, s).Success? == ResolveTargets(ts[1..], s1).Success?;
        ResolveTargetsSucceedsIff(ts[1..], s1);
        assert forall k :: k in s1.entries <==> k in s.entries || (ts[0].Create? && Head(ts[0].name) == k);
        forall j | 0 <= j < |ts| - 1
          ensures ResolvableAt(ts[1..], j, s1) <==> ResolvableAt(ts, j + 1, s)
        {
          ResolvableShift(ts, s, s1, j);
        }
        assert ResolvableAt(ts, 0, s);
        AllShift(ts, s, s1);
      }
    }
  }

  /** "All resolvable" splits into the first reference and the shifted rest. */
  lemma AllShift(ts: seq<Target>, s: Store, s1: Store)
    requires 0 < |ts| && ResolvableAt(ts, 0, s)
    requires forall j :: 0 <= j < |ts| - 1 ==> (ResolvableAt(ts[1..], j, s1) <==> ResolvableAt(ts, j + 1, s))
    ensures (forall j :: 0 <= j < |ts| ==> ResolvableAt(ts, j, s))
            <==> (forall j :: 0 <= j < |ts| - 1 ==> ResolvableAt(ts[1..], j, s1))
  {
    if forall j :: 0 <= j < |ts| - 1 ==> ResolvableAt(ts[1..], j, s1) {
      forall j | 0 <= j < |ts| ensures ResolvableAt(ts, j, s) {
        if j > 0 {
          assert ResolvableAt(ts[1..], j - 1, s1);
        }
      }
    }
  }

  /** Resolving the same references again, against any store that holds
      everything the first run left behind, returns the same modules and
      changes nothing. */
  lemma {:induction false} ResolveTargetsAgain(ts: seq<Target>, s: Store, t: Store)
    requires Valid(s) && Valid(t)
    requires ResolveTargets(ts, s).Success?
    requires Agrees(ResolveTargets(ts, s).value.1, t)
    ensures ResolveTargets(ts, t) == Success((ResolveTargets(ts, s).value.0, t))
    decreases |ts|
  {
    if ts != [] {
      var r0 := ResolveTarget(ts[0], s);
      var s1 := r0.value.1;
      var final := ResolveTargets(ts, s).value.1;
      assert ResolveTargets(ts[1..], s1).Success?;
      assert ResolveTargets(ts[1..], s1).value.1 == final;
      var k := KeyOf(ts[0]);
      assert k in s1.entries && r0.value.0 == s1.entries[k];
      assert t.entries[k] == r0.value.0;
      assert ResolveTarget(ts[0], t) == Success((r0.value.0, t));
      ResolveTargetsAgain(ts[1..], s1, t);
    }
  }

  /** `file.load_imports(module_store)`: the modules the file's import
      statements resolve to, in walk order, and the grown store. */
  function LoadImports(f: SourceFile, s: Store): (r: Result<(seq<Module>, Store), LoadError>)
    requires Valid(s)
    ensures r.Success? ==> |r.value.0| == Arity(f.stmts)
    ensures r.Success? ==> Valid(r.value.1) && Extends(s, r.value.1)
    ensures r.Success? && IdsMatch(s) ==> IdsMatch(r.value.1)
    ensures r.Success? && IdsMatch(s) ==> forall j :: 0 <= j < |r.value.0| ==>
              r.value.0[j].id in r.value.1.entries && r.value.1.entries[r.value.0[j].id] == r.value.0[j]
    ensures r.Failure? && r.error.KeyError? ==>
              r.error.key !in s.entries
              && exists j :: 0 <= j < |f.stmts| && f.stmts[j].ImportFrom? && f.stmts[j].level > 0
                             && RelativeKey(f.parts, f.stmts[j].level, f.stmts[j].moduleName) == r.error.key
  {
    var ts := Targets(f.parts, f.stmts);
    var r := ResolveTargets(ts, s);
    if r.Success? && IdsMatch(s) then
      ResolveTargetsKeepsIds(ts, s);
      ResolveTargetsEntries(ts, s);
      r
    else if r.Failure? then
      ResolveTargetsFailure(ts, s);
      if r.error.KeyError? then
        LookupComesFromRelativeImport(f.parts, f.stmts, r.error.key);
        r
      else r
    else r
  }

  /** Loading a file's imports is resolving its references in walk order. */
  lemma LoadImportsResolvesTargets(f: SourceFile, s: Store)
    requires Valid(s)
    ensures LoadImports(f, s) == ResolveTargets(Targets(f.parts, f.stmts), s)
  {
  }

  /** `k` is the key of one of the file's relative imports. */
  predicate IsRelativeKeyOf(f: SourceFile, k: string)
  {
    exists j :: 0 <= j < |f.stmts| && f.stmts[j].ImportFrom? && f.stmts[j].level > 0
                && RelativeKey(f.parts, f.stmts[j].level, f.stmts[j].moduleName) == k
  }

  /** The only modules `load_imports` adds are external ones, each keyed by a
      first segment. */
  lemma LoadImportsAddsExternals(f: SourceFile, s: Store)
    requires Valid(s)
    requires LoadImports(f, s).Success?
    ensures forall k :: k in LoadImports(f, s).value.1.entries && k !in s.entries ==>
              LoadImports(f, s).value.1.entries[k] == Module(k, External, None) && '.' !in k
  {
  }

  /** Against any store that keeps every entry the call left, `load_imports`
      returns the same modules and adds nothing. */
  lemma LoadImportsAgain(f: SourceFile, s: Store, t: Store)
    requires Valid(s) && Valid(t)
    requires LoadImports(f, s).Success?
    requires Agrees(LoadImports(f, s).value.1, t)
    ensures LoadImports(f, t) == Success((LoadImports(f, s).value.0, t))
  {
    ResolveTargetsAgain(Targets(f.parts, f.stmts), s, t);
  }

  /** `load_imports` starts from an empty list, so calling it a second time
      returns the same modules and leaves the store as the first call left it. */
  lemma LoadImportsIdempotent(f: SourceFile, s: Store)
    requires Valid(s)
    requires LoadImports(f, s).Success?
    ensures LoadImports(f, LoadImports(f, s).value.1) == LoadImports(f, s)
  {
    LoadImportsAgain(f, s, LoadImports(f, s).value.1);
  }

  /** `import a.b.c` and `from a.b import x` are both keyed by the first segment `a`. */
  lemma AbsoluteImportsUseFirstSegment(parts: seq<string>, segments: seq<string>, x: seq<string>)
    requires |segments| > 0 && '.' !in segments[0]
    ensures StmtTargets(parts, Import([Join(segments, '.')])) == [Create(Join(segments, '.'))]
    ensures StmtTargets(parts, ImportFrom(0, Some(Join(segments, '.')))) == [Create(Join(segments, '.'))]
    ensures KeyOf(Create(Join(segments, '.'))) == segments[0]
  {
    HeadOfDotted(segments);
  }

  /** `from . import x` (level 1, no module) names the package of the importing
      file itself: the id its `__init__.py` is registered under, not `pkg.x`. */
  lemma RelativeImportOfPackage(parts: seq<string>, level: nat, content: string, stmts: seq<ImportStmt>)
    requires level > 0
    ensures RelativeKey(parts, level, None)
            == ModuleId(SourceFile(DropLast(parts, level) + [InitFileName], content, stmts))
  {
    ModuleIdOfInit(DropLast(parts, level), content, stmts);
  }

  /** `from .m import x` inside a package names the id a sibling file `m.py`
      is registered under. */
  lemma RelativeImportOfSibling(parts: seq<string>, level: nat, m: string, content: string, stmts: seq<ImportStmt>)
    requires level > 0
    requires |DropLast(parts, level)| > 0
    requires m != "" && m + ".py" != InitFileName
    requires !Contains(Join(DropLast(parts, level) + [m], '.'), ".py")
    ensures RelativeKey(parts, level, Some(m))
            == ModuleId(SourceFile(DropLast(parts, level) + [m + ".py"], content, stmts))
  {
    var dirs := DropLast(parts, level);
    ModuleIdOfPlainFile(dirs, m, content, stmts);
    JoinSnoc(dirs, m, '.');
  }

  /** In a top-level file the base is empty, so `from .m import x` looks up
      ".m" with a leading dot, which is not the id "m" of a top-level `m.py`. */
  lemma RelativeImportAtTopLevel(parts: seq<string>, level: nat, m: string)
    requires 0 < |parts| <= level
    requires m != ""
    ensures RelativeKey(parts, level, Some(m)) == "." + m
    ensures RelativeKey(parts, level, Some(m)) != m
  {
    assert |"." + m| == |m| + 1;
  }
}

=== FILE: loader.dfy ===
/** `RepoLoader.load_repo` of load.py, from the file listing on: every
    discovered file is registered as an internal module, then every file's
    imports are resolved against the shared store. */
module Loader {
  import opened Wrappers
  import opened SourceFiles
  import opened ModuleStore
  import opened Imports

  /** What `load_repo` leaves behind: the files, the module store, and the
      `imports` list of each file, `imports[i]` belonging to `files[i]`. */
  datatype LoadedRepo = LoadedRepo(files: seq<SourceFile>, store: Store, imports: seq<seq<Module>>)

  /** The module id of every file, in discovery order. */
  function ModuleIds(files: seq<SourceFile>): (ids: seq<string>)
    ensures |ids| == |files|
    ensures forall i :: 0 <= i < |files| ==> ids[i] == ModuleId(files[i])
  {
    seq(|files|, i requires 0 <= i < |files| => ModuleId(files[i]))
  }

  /** `j` is the last of the first `n` positions holding `k`. */
  predicate IsLastWithId(ids: seq<string>, n: nat, k: string, j: nat)
    requires n <= |ids|
  {
    j < n && ids[j] == k && forall j' :: j < j' < n ==> ids[j'] != k
  }

  /** The registration loop over the first `n` files, given their ids: each
      id is stored as an internal module naming its file, a later file with
      the same id replacing the earlier one. */
  function Register(ids: seq<string>, n: nat): (s: Store)
    requires n <= |ids|
    ensures Valid(s) && IdsMatch(s)
    ensures forall i :: 0 <= i < n ==> ids[i] in s.entries
    ensures forall k :: k in s.entries ==>
              && s.entries[k].kind == Internal
              && s.entries[k].file.Some?
              && IsLastWithId(ids, n, k, s.entries[k].file.value)
  {
    if n == 0 then EmptyStore
    else
      var prev := Register(ids, n - 1);
      RegisterStep(ids, n, prev);
      Put(prev, ids[n - 1], Module(ids[n - 1], Internal, Some(n - 1)))
  }

  /** Registering file `n - 1` on top of the first `n - 1` keeps the
      registration invariant for the first `n`. */
  lemma RegisterStep(ids: seq<string>, n: nat, prev: Store)
    requires 0 < n <= |ids|
    requires Valid(prev) && IdsMatch(prev)
    requires forall i :: 0 <= i < n - 1 ==> ids[i] in prev.entries
    requires forall k :: k in prev.entries ==>
               && prev.entries[k].kind == Internal
               && prev.entries[k].file.Some?
               && IsLastWithId(ids, n - 1, k, prev.entries[k].file.value)
    ensures var s := Put(prev, ids[n - 1], Module(ids[n - 1], Internal, Some(n - 1)));
            && Valid(s) && IdsMatch(s)
            && (forall i :: 0 <= i < n ==> ids[i] in s.entries)
            && (forall k :: k in s.entries ==>
                  && s.entries[k].kind == Internal
                  && s.entries[k].file.Some?
                  && IsLastWithId(ids, n, k, s.entries[k].file.value))
  {
    var s := Put(prev, ids[n - 1], Module(ids[n - 1], Internal, Some(n - 1)));
    forall k | k in s.entries
      ensures s.entries[k].kind == Internal && s.entries[k].file.Some?
      ensures IsLastWithId(ids, n, k, s.entries[k].file.value)
    {
      if k != ids[n - 1] {
        assert s.entries[k] == prev.entries[k];
        assert IsLastWithId(ids, n - 1, k, prev.entries[k].file.value);
      }
    }
  }

  /** The resolution loop from file `i` on: `load_imports` of each file in
      turn against the store the previous files left. */
  function ResolveFrom(files: seq<SourceFile>, i: nat, s: Store): (r: Result<(seq<seq<Module>>, Store), LoadError>)
    requires i <= |files| && Valid(s)
    ensures r.Success? ==> Valid(r.value.1) && Extends(s, r.value.1)
    ensures r.Success? ==> |r.value.0| == |files| - i
    decreases |files| - i
  {
    if i == |files| then Success(([], s))
    else
      var r0 := LoadImports(files[i], s);
      if r0.Failure? then Failure(r0.error)
      else
        var r1 := ResolveFrom(files, i + 1, r0.value.1);
        if r1.Failure? then Failure(r1.error)
        else
          ExtendsTransitive(s, r0.value.1, r1.value.1);
          Success(([r0.value.0] + r1.value.0, r1.value.1))
  }

  /** Each file's list holds one module per imported reference, each one the
      module the final store holds under its id. */
  lemma ResolveFromImports(files: seq<SourceFile>, i: nat, s: Store)
    requires i <= |files| && Valid(s) && IdsMatch(s)
    requires ResolveFrom(files, i, s).Success?
    ensures IdsMatch(ResolveFrom(files, i, s).value.1)
    ensures var r := ResolveFrom(files, i, s).value;
            i == 0 ==> forall a :: 0 <= a < |files| ==> |r.0[a]| == Arity(files[a].stmts)
    ensures var r := ResolveFrom(files, i, s).value;
            forall a, b :: 0 <= a < |r.0| && 0 <= b < |r.0[a]| ==>
              r.0[a][b].id in r.1.entries && r.1.entries[r.0[a][b].id] == r.0[a][b]
  {
    ResolveFromImportsFrom(files, i, s);
    if i == 0 {
      var r := ResolveFrom(files, i, s).value;
      forall a | 0 <= a < |files| ensures |r.0[a]| == Arity(files[a].stmts) {
        assert r.0[a - i] == r.0[a];
      }
    }
  }

  /** The induction behind `ResolveFromImports`, file `a` holding list `a - i`. */
  lemma {:induction false} ResolveFromImportsFrom(files: seq<SourceFile>, i: nat, s: Store)
    requires i <= |files| && Valid(s) && IdsMatch(s)
    requires ResolveFrom(files, i, s).Success?
    ensures IdsMatch(ResolveFrom(files, i, s).value.1)
    ensures var r := ResolveFrom(files, i, s).value;
            forall a :: i <= a < |files| ==> |r.0[a - i]| == Arity(files[a].stmts)
    ensures var r := ResolveFrom(files, i, s).value;
            forall a, b :: 0 <= a < |r.0| && 0 <= b < |r.0[a]| ==>
              r.0[a][b].id in r.1.entries && r.1.entries[r.0[a][b].id] == r.0[a][b]
    decreases |files| - i
  {
    if i < |files| {
      var r0 := LoadImports(files[i], s);
      var imps := r0.value.0;
      var s1 := r0.value.1;
      ResolveFromImportsFrom(files, i + 1, s1);
      var rest := ResolveFrom(files, i + 1, s1).value.0;
      var s2 := ResolveFrom(files, i + 1, s1).value.1;
      assert ResolveFrom(files, i, s).value == ([imps] + rest, s2);
      forall a | i < a < |files| ensures |([imps] + rest)[a - i]| == Arity(files[a].stmts) {
        assert ([imps] + rest)[a - i] == rest[a - (i + 1)];
      }
      forall a, b | 0 <= a < |[imps] + rest| && 0 <= b < |([imps] + rest)[a]|
        ensures ([imps] + rest)[a][b].id in s2.entries && s2.entries[([imps] + rest)[a][b].id] == ([imps] + rest)[a][b]
      {
        if a > 0 {
          assert ([imps] + rest)[a] == rest[a - 1];
        }
      }
    }
  }

  /** Running `load_imports` again on any file, against the final store,
      returns that file's list and leaves the store unchanged. */
  lemma {:induction false} ResolveFromIdempotent(files: seq<SourceFile>, i: nat, s: Store)
    requires i <= |files| && Valid(s)
    requires ResolveFrom(files, i, s).Success?
    ensures var r := ResolveFrom(files, i, s).value;
            forall a :: i <= a < |files| ==> LoadImports(files[a], r.1) == Success((r.0[a - i], r.1))
    ensures var r := ResolveFrom(files, i, s).value;
            i == 0 ==> forall a :: 0 <= a < |files| ==> LoadImports(files[a], r.1) == Success((r.0[a], r.1))
    decreases |files| - i
  {
    ResolveFromIdempotentFrom(files, i, s);
    if i == 0 {
      var r := ResolveFrom(files, i, s).value;
      forall a | 0 <= a < |files| ensures LoadImports(files[a], r.1) == Success((r.0[a], r.1)) {
        assert r.0[a - i] == r.0[a];
      }
    }
  }

  /** The induction behind `ResolveFromIdempotent`, file `a` holding list `a - i`. */
  lemma {:induction false} ResolveFromIdempotentFrom(files: seq<SourceFile>, i: nat, s: Store)
    requires i <= |files| && Valid(s)
    requires ResolveFrom(files, i, s).Success?
    ensures var r := ResolveFrom(files, i, s).value;
            forall a :: i <= a < |files| ==> LoadImports(files[a], r.1) == Success((r.0[a - i], r.1))
    decreases |files| - i
  {
    if i < |files| {
      var r0 := LoadImports(files[i], s);
      var s1 := r0.value.1;
      var r1 := ResolveFrom(files, i + 1, s1);
      var s2 := r1.value.1;
      var imps := [r0.value.0] + r1.value.0;
      assert ResolveFrom(files, i, s).value == (imps, s2);
      ResolveFromIdempotentFrom(files, i + 1, s1);
      LoadImportsAgain(files[i], s, s2);
      forall a | i < a < |files|
        ensures LoadImports(files[a], s2) == Success((imps[a - i], s2))
      {
        assert imps[a - i] == r1.value.0[a - (i + 1)];
      }
    }
  }

  /** The only modules resolution adds are external ones, each keyed by a
      first segment. */
  lemma {:induction false} ResolveFromAddsExternals(files: seq<SourceFile>, i: nat, s: Store)
    requires i <= |files| && Valid(s)
    requires ResolveFrom(files, i, s).Success?
    ensures forall k :: k in ResolveFrom(files, i, s).value.1.entries && k !in s.entries ==>
              ResolveFrom(files, i, s).value.1.entries[k] == Module(k, External, None) && '.' !in k
    decreases |files| - i
  {
    if i < |files| {
      var s1 := LoadImports(files[i], s).value.1;
      LoadImportsAddsExternals(files[i], s);
      ResolveFromAddsExternals(files, i + 1, s1);
    }
  }

  /** A `KeyError` comes from a relative import of one of the files whose key
      the store lacked when resolution began. */
  lemma {:induction false} ResolveFromFailure(files: seq<SourceFile>, i: nat, s: Store)
    requires i <= |files| && Valid(s)
    requires ResolveFrom(files, i, s).Failure? && ResolveFrom(files, i, s).error.KeyError?
    ensures ResolveFrom(files, i, s).error.key !in s.entries
    ensures exists a :: i <= a < |files| && IsRelativeKeyOf(files[a], ResolveFrom(files, i, s).error.key)
    decreases |files| - i
  {
    var r0 := LoadImports(files[i], s);
    if r0.Success? {
      ResolveFromFailure(files, i + 1, r0.value.1);
    }
  }

  /** The file has no `from` import with neither dots nor a module name. */
  predicate NoNamelessFrom(f: SourceFile)
  {
    forall j :: 0 <= j < |f.stmts| ==> f.stmts[j] != ImportFrom(0, None)
  }

  /** Every relative import of the file names a key of the store. */
  predicate RelativeKeysStored(f: SourceFile, s: Store)
  {
    forall j :: 0 <= j < |f.stmts| && f.stmts[j].ImportFrom? && f.stmts[j].level > 0 ==>
      RelativeKey(f.parts, f.stmts[j].level, f.stmts[j].moduleName) in s.entries
  }

  /** Resolution goes through when no file has a nameless absolute `from`
      import and every relative import of every file names a key the store
      already holds. */
  lemma {:induction false} ResolveFromSucceeds(files: seq<SourceFile>, i: nat, s: Store)
    requires i <= |files| && Valid(s)
    requires forall a :: i <= a < |files| ==> NoNamelessFrom(files[a]) && RelativeKeysStored(files[a], s)
    ensures ResolveFrom(files, i, s).Success?
    decreases |files| - i
  {
    if i < |files| {
      var f := files[i];
      var ts := Targets(f.parts, f.stmts);
      forall j | 0 <= j < |ts| ensures ResolvableAt(ts, j, s) {
        assert ts[j] in ts;
        if ts[j].Lookup? {
          LookupComesFromRelativeImport(f.parts, f.stmts, ts[j].key);
        } else if ts[j].NoName? {
          NoNameComesFromNamelessImport(f.parts, f.stmts);
        }
      }
      ResolveTargetsSucceedsIff(ts, s);
      var s1 := LoadImports(f, s).value.1;
      ResolveFromSucceeds(files, i + 1, s1);
    }
  }

  /** A `NoName` reference comes from a `from` import with neither dots nor a
      module name. */
  lemma {:induction false} NoNameComesFromNamelessImport(parts: seq<string>, stmts: seq<ImportStmt>)
    requires NoName in Targets(parts, stmts)
    ensures exists j :: 0 <= j < |stmts| && stmts[j] == ImportFrom(0, None)
  {
    if NoName in StmtTargets(parts, stmts[0]) {
      assert stmts[0] == ImportFrom(0, None);
    } else {
      NoNameComesFromNamelessImport(parts, stmts[1..]);
      var j :| 0 <= j < |stmts[1..]| && stmts[1..][j] == ImportFrom(0, None);
      assert stmts[j + 1] == stmts[1..][j];
    }
  }

  /** The shape every successful `load_repo` leaves: a consistent store in
      which each file's id is an internal module, each internal module names a
      file with its id, each external module is a first segment with no file,
      and every imported module is the store's own entry for its id. */
  predicate WellFormed(repo: LoadedRepo)
  {
    var ids := ModuleIds(repo.files);
    && Valid(repo.store)
    && IdsMatch(repo.store)
    && |repo.imports| == |repo.files|
    && (forall i :: 0 <= i < |ids| ==>
          ids[i] in repo.store.entries && repo.store.entries[ids[i]].kind == Internal)
    && (forall k :: k in repo.store.entries && repo.store.entries[k].kind == Internal ==>
          && repo.store.entries[k].file.Some?
          && repo.store.entries[k].file.value < |ids|
          && ids[repo.store.entries[k].file.value] == k)
    && (forall k :: k in repo.store.entries && repo.store.entries[k].kind == External ==>
          repo.store.entries[k].file.None? && '.' !in k)
    && (forall a, b :: 0 <= a < |repo.imports| && 0 <= b < |repo.imports[a]| ==>
          && repo.imports[a][b].id in repo.store.entries
          && repo.store.entries[repo.imports[a][b].id] == repo.imports[a][b])
  }

  /** What registering and then resolving leaves is well formed. */
  lemma ResolvedWellFormed(files: seq<SourceFile>, s: Store, imps: seq<seq<Module>>, s2: Store)
    requires s == Register(ModuleIds(files), |files|)
    requires ResolveFrom(files, 0, s) == Success((imps, s2))
    ensures WellFormed(LoadedRepo(files, s2, imps))
  {
    ResolveFromImports(files, 0, s);
    RegisteredIdsKept(ModuleIds(files), s, s2);
    RegisteredInternals(files, s, s2);
  }

  /** Each file's list has one module per imported reference. */
  lemma ResolvedArity(files: seq<SourceFile>, s: Store, imps: seq<seq<Module>>, s2: Store)
    requires Valid(s) && IdsMatch(s)
    requires ResolveFrom(files, 0, s) == Success((imps, s2))
    ensures forall i :: 0 <= i < |files| ==> |imps[i]| == Arity(files[i].stmts)
  {
    ResolveFromImports(files, 0, s);
  }

  /** Resolution keeps every file's registration. */
  lemma RegisteredIdsKept(ids: seq<string>, s: Store, s2: Store)
    requires s == Register(ids, |ids|)
    requires Extends(s, s2)
    ensures forall i :: 0 <= i < |ids| ==> ids[i] in s2.entries && s2.entries[ids[i]] == s.entries[ids[i]]
  {
  }

  /** Internal entries of the resolved store are the registered ones; all
      others are external first segments. */
  lemma RegisteredInternals(files: seq<SourceFile>, s: Store, s2: Store)
    requires s == Register(ModuleIds(files), |files|)
    requires ResolveFrom(files, 0, s).Success? && s2 == ResolveFrom(files, 0, s).value.1
    ensures forall k :: k in s2.entries && s2.entries[k].kind == Internal ==>
              && s2.entries[k].file.Some?
              && s2.entries[k].file.value < |files|
              && ModuleIds(files)[s2.entries[k].file.value] == k
    ensures forall k :: k in s2.entries && s2.entries[k].kind == External ==>
              s2.entries[k].file.None? && '.' !in k
  {
    ResolveFromAddsExternals(files, 0, s);
    forall k | k in s2.entries
      ensures s2.entries[k].kind == Internal ==>
                && s2.entries[k].file.Some?
                && s2.entries[k].file.value < |files|
                && ModuleIds(files)[s2.entries[k].file.value] == k
      ensures s2.entries[k].kind == External ==> s2.entries[k].file.None? && '.' !in k
    {
      if k in s.entries {
        assert s2.entries[k] == s.entries[k];
      }
    }
  }

  /** `load_repo` after file discovery: register every file, then resolve
      every file's imports. */
  function LoadRepo(files: seq<SourceFile>): (r: Result<LoadedRepo, LoadError>)
    ensures r.Success? ==> r.value.files == files && WellFormed(r.value)
  {
    var s := Register(ModuleIds(files), |files|);
    var r := ResolveFrom(files, 0, s);
    if r.Failure? then Failure(r.error)
    else
      ResolvedWellFormed(files, s, r.value.0, r.value.1);
      Success(LoadedRepo(files, r.value.1, r.value.0))
  }

  /** Each file's `imports` holds one module per imported reference. */
  lemma LoadRepoImportCounts(files: seq<SourceFile>)
    requires LoadRepo(files).Success?
    ensures forall i :: 0 <= i < |files| ==> |LoadRepo(files).value.imports[i]| == Arity(files[i].stmts)
  {
    var s := Register(ModuleIds(files), |files|);
    var r := ResolveFrom(files, 0, s).value;
    ResolvedArity(files, s, r.0, r.1);
  }

  /** When several files share a module id, the store keeps the one
      registered last. */
  lemma LoadRepoLastFileWins(files: seq<SourceFile>)
    requires LoadRepo(files).Success?
    ensures var ids := ModuleIds(files);
            var store := LoadRepo(files).value.store;
            forall i :: 0 <= i < |ids| ==>
              && ids[i] in store.entries
              && store.entries[ids[i]].file.Some?
              && IsLastWithId(ids, |ids|, ids[i], store.entries[ids[i]].file.value)
  {
    var ids := ModuleIds(files);
    var s := Register(ids, |files|);
    var r := ResolveFrom(files, 0, s).value;
    assert LoadRepo(files).value.store == r.1;
    RegisteredIdsKept(ids, s, r.1);
    forall i | 0 <= i < |ids|
      ensures r.1.entries[ids[i]].file.Some? && IsLastWithId(ids, |ids|, ids[i], r.1.entries[ids[i]].file.value)
    {
      assert ids[i] in s.entries;
    }
  }

  /** Loading fails with a `KeyError` only for the key of a relative import
      that no discovered file is registered under: a missing target is never
      created on the fly. */
  lemma LoadRepoKeyError(files: seq<SourceFile>)
    requires LoadRepo(files).Failure? && LoadRepo(files).error.KeyError?
    ensures forall i :: 0 <= i < |files| ==> ModuleId(files[i]) != LoadRepo(files).error.key
    ensures exists a :: 0 <= a < |files| && IsRelativeKeyOf(files[a], LoadRepo(files).error.key)
  {
    var s := Register(ModuleIds(files), |files|);
    ResolveFromFailure(files, 0, s);
    forall i | 0 <= i < |files|
      ensures ModuleId(files[i]) in s.entries
    {
    }
  }

  /** Loading succeeds when every relative import names the id of some
      discovered file and no absolute `from` import lacks its module name. */
  lemma LoadRepoSucceeds(files: seq<SourceFile>)
    requires forall a :: 0 <= a < |files| ==> NoNamelessFrom(files[a])
    requires forall a, k :: 0 <= a < |files| && IsRelativeKeyOf(files[a], k) ==>
               exists i :: 0 <= i < |files| && ModuleId(files[i]) == k
    ensures LoadRepo(files).Success?
  {
    var ids := ModuleIds(files);
    var s := Register(ids, |files|);
    forall a | 0 <= a < |files| ensures RelativeKeysStored(files[a], s) {
      forall k | IsRelativeKeyOf(files[a], k) ensures k in s.entries {
        var i :| 0 <= i < |files| && ModuleId(files[i]) == k;
        assert ids[i] == k;
      }
      RelativeKeysStoredIf(files[a], s);
    }
    ResolveFromSucceeds(files, 0, s);
  }

  /** A store that holds every relative key of the file holds each relative
      import's key. */
  lemma RelativeKeysStoredIf(f: SourceFile, s: Store)
    requires forall k :: IsRelativeKeyOf(f, k) ==> k in s.entries
    ensures RelativeKeysStored(f, s)
  {
    forall j | 0 <= j < |f.stmts| && f.stmts[j].ImportFrom? && f.stmts[j].level > 0
      ensures RelativeKey(f.parts, f.stmts[j].level, f.stmts[j].moduleName) in s.entries
    {
      assert IsRelativeKeyOf(f, RelativeKey(f.parts, f.stmts[j].level, f.stmts[j].moduleName));
    }
  }

  /** After loading, `load_imports` on any file returns the same list and
      leaves the store as it is. */
  lemma LoadRepoImportsIdempotent(files: seq<SourceFile>)
    requires LoadRepo(files).Success?
    ensures forall i :: 0 <= i < |files| ==>
              LoadImports(files[i], LoadRepo(files).value.store)
              == Success((LoadRepo(files).value.imports[i], LoadRepo(files).value.store))
  {
    var s := Register(ModuleIds(files), |files|);
    var r := ResolveFrom(files, 0, s).value;
    assert LoadRepo(files).value == LoadedRepo(files, r.1, r.0);
    ResolveFromIdempotent(files, 0, s);
  }
}

=== FILE: module_store.dfy ===
/** `Module`, `ModuleTypes` and the `module_store` dict of load.py. */
module ModuleStore {
  import opened Wrappers

  /** `ModuleTypes`: a module backed by a discovered file, or a library it imports. */
  datatype ModType = Internal | External

  /** `Module(id, mod_type, python_file)`. An internal module names its file by
      the file's position in the loader's file list; an external one has none. */
  datatype Module = Module(id: string, kind: ModType, file: Option<nat>)

  /** The `module_store` dict: its keys in insertion order, and what each key maps to. */
  datatype Store = Store(order: seq<string>, entries: map<string, Module>)

  const EmptyStore: Store := Store([], map[])

  /** The order lists every key exactly once. */
  predicate Valid(s: Store)
  {
    && (forall i, j :: 0 <= i < j < |s.order| ==> s.order[i] != s.order[j])
    && (forall k :: k in s.entries ==> k in s.order)
    && (forall i :: 0 <= i < |s.order| ==> s.order[i] in s.entries)
  }

  /** Every key maps to the module of that id. */
  predicate IdsMatch(s: Store)
  {
    forall k :: k in s.entries ==> s.entries[k].id == k
  }

  /** `store[k] = m`: a new key goes to the end of the order, an existing key
      keeps its place and takes the new value. */
  function Put(s: Store, k: string, m: Module): (r: Store)
    requires Valid(s)
    ensures Valid(r)
    ensures r.entries == s.entries[k := m]
    ensures k in s.entries ==> r.order == s.order
    ensures k !in s.entries ==> r.order == s.order + [k]
  {
    if k in s.entries then Store(s.order, s.entries[k := m])
    else Store(s.order + [k], s.entries[k := m])
  }

  /** `store.values()`, in insertion order. */
  function Values(s: Store): (vs: seq<Module>)
    requires Valid(s)
    ensures |vs| == |s.order|
    ensures forall i :: 0 <= i < |vs| ==> vs[i] == s.entries[s.order[i]]
  {
    seq(|s.order|, i requires 0 <= i < |s.order| => s.entries[s.order[i]])
  }

  /** `values()` follows insertion order: storing under a new key appends
      its module, and storing under an existing key replaces that key's
      module in place. */
  lemma ValuesPut(s: Store, k: string, m: Module)
    requires Valid(s)
    ensures k !in s.entries ==> Values(Put(s, k, m)) == Values(s) + [m]
    ensures forall i :: 0 <= i < |s.order| && s.order[i] == k ==> Values(Put(s, k, m)) == Values(s)[i := m]
  {
  }

  /** Every stored module is among the values. */
  lemma StoredIsAValue(s: Store, k: string)
    requires Valid(s)
    requires k in s.entries
    ensures s.entries[k] in Values(s)
  {
    var i :| 0 <= i < |s.order| && s.order[i] == k;
    assert Values(s)[i] == s.entries[k];
  }

  /** `store.values()` lists exactly the stored modules. */
  lemma ValuesAreStored(s: Store)
    requires Valid(s)
    ensures forall m :: m in Values(s) <==> m in s.entries.Values
  {
    forall m | m in s.entries.Values ensures m in Values(s) {
      var k :| k in s.entries && s.entries[k] == m;
      StoredIsAValue(s, k);
    }
  }

  /** Every key of `a` is in `b` with the same module. */
  predicate Agrees(a: Store, b: Store)
  {
    forall k :: k in a.entries ==> k in b.entries && b.entries[k] == a.entries[k]
  }

  /** `b` is `a` after inserting new keys only: nothing removed, nothing
      overwritten, the old keys still first and in the same order. */
  predicate Extends(a: Store, b: Store)
  {
    a.order <= b.order && Agrees(a, b)
  }

  /** Growing a store twice is growing it once. */
  lemma ExtendsTransitive(a: Store, b: Store, c: Store)
    requires Extends(a, b) && Extends(b, c)
    ensures Extends(a, c)
  {
  }
}

=== FILE: normalizers.dfy ===
/** `Normalizer` of visualizer.py: the linear map that sends the observed
    range `[min(data), max(data)]` onto a target range `[new_min, new_max]`.
    Python's `/` on these numbers is true division; the model computes it
    exactly over `real`. */
module Normalizers {
  import opened Wrappers

  /** The two ways a normalizer fails: `min` or `max` of an empty list
      (`ValueError`), and a division by a zero observed range
      (`ZeroDivisionError`). */
  datatype NormError = EmptyData | DivisionByZero

  /** The fields `__init__` keeps: the observed minimum and maximum and the
      target range. */
  datatype Normalizer = Normalizer(lo: real, hi: real, newMin: real, newMax: real)

  /** `min(xs)`. */
  function Minimum(xs: seq<real>): (m: real)
    requires |xs| > 0
    ensures m in xs
    ensures forall i :: 0 <= i < |xs| ==> m <= xs[i]
  {
    if |xs| == 1 then xs[0]
    else
      var rest := Minimum(xs[1..]);
      if xs[0] <= rest then xs[0] else rest
  }

  /** `max(xs)`. */
  function Maximum(xs: seq<real>): (m: real)
    requires |xs| > 0
    ensures m in xs
    ensures forall i :: 0 <= i < |xs| ==> xs[i] <= m
  {
    if |xs| == 1 then xs[0]
    else
      var rest := Maximum(xs[1..]);
      if xs[0] >= rest then xs[0] else rest
  }

  /** `Normalizer(data, new_min, new_max)`: fails on empty data, otherwise
      records the smallest and largest sample and the target range. */
  function MakeNormalizer(data: seq<real>, newMin: real, newMax: real): (r: Result<Normalizer, NormError>)
    ensures r.Failure? <==> data == []
    ensures r.Failure? ==> r.error == EmptyData
    ensures r.Success? ==>
              && r.value.lo in data && r.value.hi in data
              && (forall i :: 0 <= i < |data| ==> r.value.lo <= data[i] <= r.value.hi)
              && r.value.newMin == newMin && r.value.newMax == newMax
  {
    if data == [] then Failure(EmptyData)
    else Success(Normalizer(Minimum(data), Maximum(data), newMin, newMax))
  }

  /** The observed range is a single point, so `normalize` divides by zero. */
  predicate Degenerate(n: Normalizer)
  {
    n.hi == n.lo
  }

  /** `normalize(value)`: the point of the target range in the same
      proportion as `value` in the observed range. There is no guard for an
      observed range of width zero. */
  function Normalize(n: Normalizer, v: real): (r: Result<real, NormError>)
    ensures r.Failure? <==> Degenerate(n)
    ensures r.Failure? ==> r.error == DivisionByZero
    ensures r.Success? ==> (r.value - n.newMin) * (n.hi - n.lo) == (v - n.lo) * (n.newMax - n.newMin)
  {
    if n.hi == n.lo then Failure(DivisionByZero)
    else Success(n.newMin + (v - n.lo) * (n.newMax - n.newMin) / (n.hi - n.lo))
  }

  /** The observed minimum goes to `new_min` and the observed maximum to `new_max`. */
  lemma NormalizeEndpoints(n: Normalizer)
    requires !Degenerate(n)
    ensures Normalize(n, n.lo) == Success(n.newMin)
    ensures Normalize(n, n.hi) == Success(n.newMax)
  {
    var d := n.hi - n.lo;
    var span := n.newMax - n.newMin;
    calc {
      Normalize(n, n.lo).value;
      n.newMin + (n.lo - n.lo) * span / d;
      { assert (n.lo - n.lo) * span == 0.0; }
      n.newMin;
    }
    calc {
      Normalize(n, n.hi).value;
      n.newMin + d * span / d;
      { assert d * span / d == span; }
      n.newMax;
    }
  }

  /** Scaling by a non-negative factor and dividing by a positive one keep order. */
  lemma ScaleMonotone(x: real, y: real, span: real, d: real)
    requires x <= y && 0.0 <= span && 0.0 < d
    ensures x * span / d <= y * span / d
  {
    assert x * span <= y * span;
  }

  /** For an increasing target range, `normalize` never decreases, inside
      the observed range or outside it. */
  lemma NormalizeMonotone(n: Normalizer, v: real, w: real)
    requires n.lo < n.hi && n.newMin <= n.newMax
    requires v <= w
    ensures Normalize(n, v).value <= Normalize(n, w).value
  {
    ScaleMonotone(v - n.lo, w - n.lo, n.newMax - n.newMin, n.hi - n.lo);
  }

  /** For an increasing target range, every value of the observed range lands
      in the target range. */
  lemma NormalizeInRange(n: Normalizer, v: real)
    requires n.lo < n.hi && n.newMin <= n.newMax
    requires n.lo <= v <= n.hi
    ensures n.newMin <= Normalize(n, v).value <= n.newMax
  {
    NormalizeMonotone(n, n.lo, v);
    NormalizeMonotone(n, v, n.hi);
    NormalizeEndpoints(n);
  }

  /** A normalizer built from samples keeps every sample of a non-degenerate
      range inside the target range, and is degenerate exactly when all
      samples are equal. */
  lemma SamplesInRange(data: seq<real>, newMin: real, newMax: real)
    requires MakeNormalizer(data, newMin, newMax).Success?
    ensures var n := MakeNormalizer(data, newMin, newMax).value;
            Degenerate(n) <==> forall i, j :: 0 <= i < |data| && 0 <= j < |data| ==> data[i] == data[j]
    ensures var n := MakeNormalizer(data, newMin, newMax).value;
            !Degenerate(n) && newMin <= newMax ==>
              forall i :: 0 <= i < |data| ==> newMin <= Normalize(n, data[i]).value <= newMax
  {
    var n := MakeNormalizer(data, newMin, newMax).value;
    if !Degenerate(n) && newMin <= newMax {
      forall i | 0 <= i < |data| ensures newMin <= Normalize(n, data[i]).value <= newMax {
        NormalizeInRange(n, data[i]);
      }
    }
  }
}

=== FILE: scenarios.dfy ===
/** Worked examples on small concrete inputs: relative import keys, the
    normalizer on two samples, and a two-file repository loaded with a
    relative and with an absolute import of its sibling, then visualized
    with the default options and with a given external colour. */
module Scenarios {
  import opened Wrappers
  import opened Strings
  import opened SourceFiles
  import opened ModuleStore
  import opened Imports
  import opened Loader
  import opened Normalizers
  import opened Visualizer

  /** In `pkg/sub/mod.py`, `from . import x` is keyed by the package
      `pkg.sub` itself and `from .. import y` by `pkg`; only a named source
      module extends the key. */
  lemma RelativeKeysInSubpackage()
    ensures RelativeKey(["pkg", "sub", "mod.py"], 1, None) == "pkg.sub"
    ensures RelativeKey(["pkg", "sub", "mod.py"], 2, None) == "pkg"
    ensures RelativeKey(["pkg", "sub", "mod.py"], 1, Some("x")) == "pkg.sub.x"
  {
    var parts := ["pkg", "sub", "mod.py"];
    assert DropLast(parts, 1) == ["pkg", "sub"];
    assert DropLast(parts, 2) == ["pkg"];
    assert Join(["pkg", "sub"], '.') == "pkg" + "." + "sub";
  }

  /** Samples 1, 2, 3 scaled onto `[0, 10]` send 2 to 5. */
  lemma NormalizeMidpoint()
    ensures MakeNormalizer([1.0, 2.0, 3.0], 0.0, 10.0).Success?
    ensures Normalize(MakeNormalizer([1.0, 2.0, 3.0], 0.0, 10.0).value, 2.0) == Success(5.0)
  {
    var n := MakeNormalizer([1.0, 2.0, 3.0], 0.0, 10.0).value;
    assert Minimum([1.0, 2.0, 3.0]) == 1.0;
    assert Maximum([1.0, 2.0, 3.0]) == 3.0;
    assert n == Normalizer(1.0, 3.0, 0.0, 10.0);
  }

  /** Equal samples make every normalization divide by zero. */
  lemma NormalizeEqualSamples()
    ensures MakeNormalizer([5.0, 5.0, 5.0], 0.0, 1.0).Success?
    ensures Normalize(MakeNormalizer([5.0, 5.0, 5.0], 0.0, 1.0).value, 5.0) == Failure(DivisionByZero)
  {
    assert Minimum([5.0, 5.0, 5.0]) == 5.0;
    assert Maximum([5.0, 5.0, 5.0]) == 5.0;
  }

  /** The source line of an import statement, importing the name `x` in
      the `from` form. */
  function StmtLine(st: ImportStmt): string
  {
    match st
    case Import(names) => "import " + Join(names, ',') + "\n"
    case ImportFrom(level, name) =>
      "from " + seq(level, _ => '.') + (if name.Some? then name.value else "") + " import x\n"
  }

  /** The file `a.py`, importing `os` and then its sibling `b` by the given
      statement; its text holds both statements. */
  function FileA(sibling: ImportStmt): SourceFile
  {
    SourceFile(["a.py"], "import os\n" + StmtLine(sibling), [Import(["os"]), sibling])
  }

  /** The empty file `b.py`. */
  const FileB: SourceFile := SourceFile(["b.py"], "", [])

  /** `a.py` and `b.py` have the module ids `a` and `b`. */
  lemma ToyModuleIds(sibling: ImportStmt)
    ensures ModuleId(FileA(sibling)) == "a"
    ensures ModuleId(FileB) == "b"
  {
    ModuleIdOfPlainFile([], "a", FileA(sibling).content, [Import(["os"]), sibling]);
    ModuleIdOfPlainFile([], "b", "", []);
    assert [] + ["a.py"] == ["a.py"] && [] + ["a"] == ["a"];
    assert [] + ["b.py"] == ["b.py"] && [] + ["b"] == ["b"];
  }

  /** The two files, `a.py` importing `b` by the given statement. */
  function ToyFiles(sibling: ImportStmt): seq<SourceFile>
  {
    [FileA(sibling), FileB]
  }

  /** Registration stores `a` and `b` as internal modules, in that order. */
  const ToyRegistered: Store :=
    Store(["a", "b"], map["a" := Module("a", Internal, Some(0)), "b" := Module("b", Internal, Some(1))])

  lemma ToyRegister(sibling: ImportStmt)
    ensures ModuleIds(ToyFiles(sibling)) == ["a", "b"]
    ensures Register(ModuleIds(ToyFiles(sibling)), 2) == ToyRegistered
  {
    ToyIds(sibling);
    ToyRegisterIds();
  }

  lemma ToyIds(sibling: ImportStmt)
    ensures ModuleIds(ToyFiles(sibling)) == ["a", "b"]
  {
    var files := ToyFiles(sibling);
    ToyModuleIds(sibling);
    assert ModuleIds(files)[0] == ModuleId(files[0]) == "a";
    assert ModuleIds(files)[1] == ModuleId(files[1]) == "b";
  }

  lemma ToyRegisterIds()
    ensures Register(["a", "b"], 2) == ToyRegistered
  {
    var s0 := Register(["a", "b"], 0);
    var s1 := Register(["a", "b"], 1);
    assert s1 == Put(s0, "a", Module("a", Internal, Some(0)));
    assert s1 == Store(["a"], map["a" := Module("a", Internal, Some(0))]);
    assert "b" !in s1.entries;
    assert Register(["a", "b"], 2) == Put(s1, "b", Module("b", Internal, Some(1)));
    assert Put(s1, "b", Module("b", Internal, Some(1))) == Store(s1.order + ["b"], s1.entries["b" := Module("b", Internal, Some(1))]);
  }

  /** `import os` creates the external module `os` at the end of the store. */
  lemma ToyImportOs()
    ensures ResolveTarget(Create("os"), ToyRegistered)
            == Success((Module("os", External, None), ToyWithOs))
  {
    assert Head("os") == "os";
    assert Valid(ToyRegistered);
    assert "os" !in ToyRegistered.entries;
    assert ToyRegistered.order + ["os"] == ToyWithOs.order;
    assert ToyRegistered.entries["os" := Module("os", External, None)] == ToyWithOs.entries;
    assert Put(ToyRegistered, "os", Module("os", External, None)) == ToyWithOs;
  }

  /** The store after `import os`. */
  const ToyWithOs: Store :=
    Store(["a", "b", "os"], map["a" := Module("a", Internal, Some(0)), "b" := Module("b", Internal, Some(1)),
                                "os" := Module("os", External, None)])

  /** `a.py` refers first to `os`, then to whatever its sibling statement names. */
  lemma ToyTargets(sibling: ImportStmt)
    ensures Targets(FileA(sibling).parts, FileA(sibling).stmts) == [Create("os")] + StmtTargets(["a.py"], sibling)
  {
    var stmts := [Import(["os"]), sibling];
    assert StmtTargets(["a.py"], Import(["os"])) == [Create("os")];
    assert stmts[1..] == [sibling];
    assert Targets(["a.py"], stmts[1..][1..]) == [];
    assert Targets(["a.py"], stmts[1..]) == StmtTargets(["a.py"], sibling);
  }

  /** A top-level file's `from .b import x` looks up the key ".b", which no
      file has, so loading the two files fails. */
  lemma ToyRepoRelativeSiblingFails()
    ensures LoadRepo(ToyFiles(ImportFrom(1, Some("b")))) == Failure(KeyError(".b"))
  {
    var sibling := ImportFrom(1, Some("b"));
    var files := ToyFiles(sibling);
    ToyRegister(sibling);
    ToyLoadARelative();
    assert files[0] == FileA(sibling);
    assert ResolveFrom(files, 0, ToyRegistered) == Failure(KeyError(".b"));
  }

  /** `from .b import x` in `a.py` fails after `os` has been created. */
  lemma ToyLoadARelative()
    ensures LoadImports(FileA(ImportFrom(1, Some("b"))), ToyRegistered) == Failure(KeyError(".b"))
  {
    var sibling := ImportFrom(1, Some("b"));
    RelativeImportAtTopLevel(["a.py"], 1, "b");
    assert "." + "b" == ".b";
    assert StmtTargets(["a.py"], sibling) == [Lookup(".b")];
    ToyTargets(sibling);
    var ts: seq<Target> := [Create("os"), Lookup(".b")];
    ToyImportOs();
    assert ".b" !in ToyWithOs.entries;
    assert ResolveTarget(ts[1], ToyWithOs) == Failure(KeyError(".b"));
    assert ts[1..][1..] == [];
    assert ResolveTargets(ts[1..], ToyWithOs) == Failure(KeyError(".b"));
    assert ResolveTargets(ts, ToyRegistered) == Failure(KeyError(".b"));
  }

  /** The modules `a.py` imports when it names its sibling absolutely. */
  const ToyImportsOfA: seq<Module> := [Module("os", External, None), Module("b", Internal, Some(1))]

  /** `from b import x` finds the registered internal module `b`. */
  lemma ToyLoadA()
    ensures LoadImports(FileA(ImportFrom(0, Some("b"))), ToyRegistered) == Success((ToyImportsOfA, ToyWithOs))
  {
    var sibling := ImportFrom(0, Some("b"));
    ToyAbsoluteTargets();
    ToyResolveA();
    ToyRegisteredValid();
    LoadImportsResolvesTargets(FileA(sibling), ToyRegistered);
  }

  /** `from b import x` in `a.py` refers to `b` by creation. */
  lemma ToyAbsoluteTargets()
    ensures Targets(FileA(ImportFrom(0, Some("b"))).parts, FileA(ImportFrom(0, Some("b"))).stmts)
            == [Create("os"), Create("b")]
  {
    var sibling := ImportFrom(0, Some("b"));
    assert StmtTargets(["a.py"], sibling) == [Create("b")];
    ToyTargets(sibling);
  }

  lemma ToyRegisteredValid()
    ensures Valid(ToyRegistered)
  {
  }

  /** `os` is created, then `b` is found where registration put it. */
  lemma ToyResolveA()
    ensures ResolveTargets([Create("os"), Create("b")], ToyRegistered) == Success((ToyImportsOfA, ToyWithOs))
  {
    var ts: seq<Target> := [Create("os"), Create("b")];
    ToyImportOs();
    ToyResolveB();
    assert ts[1..] == [Create("b")];
    assert [Module("os", External, None)] + [Module("b", Internal, Some(1))] == ToyImportsOfA;
  }

  /** `b` is already in the store once `os` has been added. */
  lemma ToyResolveB()
    ensures ResolveTargets([Create("b")], ToyWithOs) == Success(([Module("b", Internal, Some(1))], ToyWithOs))
  {
    var ts: seq<Target> := [Create("b")];
    assert Valid(ToyWithOs);
    assert Head("b") == "b";
    assert ToyWithOs.entries["b"] == Module("b", Internal, Some(1));
    assert ResolveTarget(ts[0], ToyWithOs) == Success((Module("b", Internal, Some(1)), ToyWithOs));
    assert ts[1..] == [];
    assert [Module("b", Internal, Some(1))] + [] == [Module("b", Internal, Some(1))];
  }

  /** The empty `b.py` imports nothing and leaves the store alone. */
  lemma ToyLoadB()
    ensures LoadImports(FileB, ToyWithOs) == Success(([], ToyWithOs))
  {
    assert Valid(ToyWithOs);
    assert Targets(FileB.parts, FileB.stmts) == [];
  }

  /** The resolution loop over two files, for any two files. */
  lemma ResolveTwo(files: seq<SourceFile>, s: Store, ms0: seq<Module>, s1: Store, ms1: seq<Module>, s2: Store)
    requires |files| == 2 && Valid(s)
    requires LoadImports(files[0], s) == Success((ms0, s1))
    requires LoadImports(files[1], s1) == Success((ms1, s2))
    ensures ResolveFrom(files, 0, s) == Success(([ms0, ms1], s2))
  {
    var done: seq<seq<Module>> := [];
    assert ResolveFrom(files, 2, s2) == Success((done, s2));
    assert [ms1] + done == [ms1];
    assert ResolveFrom(files, 1, s1) == Success(([ms1], s2));
    assert [ms0] + [ms1] == [ms0, ms1];
  }

  /** Resolving both registered files in order. */
  lemma ToyResolveAll(files: seq<SourceFile>)
    requires files == ToyFiles(ImportFrom(0, Some("b")))
    ensures ResolveFrom(files, 0, ToyRegistered) == Success(([ToyImportsOfA, []], ToyWithOs))
  {
    ToyLoadA();
    ToyLoadB();
    ToyRegisteredValid();
    ResolveTwo(files, ToyRegistered, ToyImportsOfA, ToyWithOs, [], ToyWithOs);
  }

  /** With `from b import x` instead, loading succeeds: `a` imports the
      external `os` and the internal `b`, in that order. */
  lemma ToyRepoAbsoluteSibling()
    ensures LoadRepo(ToyFiles(ImportFrom(0, Some("b"))))
            == Success(LoadedRepo(ToyFiles(ImportFrom(0, Some("b"))), ToyWithOs, [ToyImportsOfA, []]))
  {
    var sibling := ImportFrom(0, Some("b"));
    ToyRegister(sibling);
    ToyResolveAll(ToyFiles(sibling));
  }

  /** The edge loop of `visualize`, under any options that draw both kinds
      (the defaults among them), selects a red edge from `a` to `os` and then
      a blue edge from `a` to `b` for the loaded toy repository's imports. */
  lemma ToyRepoEdges(opts: Options)
    requires opts.includeInternal && opts.includeExternal
    ensures FileEdges(ModuleIds(ToyFiles(ImportFrom(0, Some("b")))), [ToyImportsOfA, []], opts, 0)
            == [Edge("a", "os", Red), Edge("a", "b", Blue)]
  {
    ToyIds(ImportFrom(0, Some("b")));
    ToyImportEdges(opts);
    var none: seq<Module> := [];
    assert ImportEdges("b", none, opts) == [];
    assert FileEdges(["a", "b"], [ToyImportsOfA, none], opts, 2) == [];
    assert FileEdges(["a", "b"], [ToyImportsOfA, none], opts, 1) == [];
  }

  /** `a`'s imports give a red edge to the external `os` and a blue edge to the internal `b`. */
  lemma ToyImportEdges(opts: Options)
    requires opts.includeInternal && opts.includeExternal
    ensures ImportEdges("a", ToyImportsOfA, opts) == [Edge("a", "os", Red), Edge("a", "b", Blue)]
  {
    assert ToyImportsOfA[1..][1..] == [];
    assert ImportEdges("a", ToyImportsOfA[1..], opts) == [Edge("a", "b", Blue)];
  }

  /** What loading the two files with `from b import x` returns. */
  const ToyLoaded: LoadedRepo := LoadedRepo(ToyFiles(ImportFrom(0, Some("b"))), ToyWithOs, [ToyImportsOfA, []])

  const ToyA: Module := Module("a", Internal, Some(0))
  const ToyB: Module := Module("b", Internal, Some(1))
  const ToyOs: Module := Module("os", External, None)

  /** The store's values, in insertion order. */
  lemma ToyValues()
    ensures Valid(ToyWithOs)
    ensures Values(ToyWithOs) == [ToyA, ToyB, ToyOs]
  {
    assert Valid(ToyWithOs);
    var vs := Values(ToyWithOs);
    assert vs[0] == ToyA && vs[1] == ToyB && vs[2] == ToyOs;
  }

  /** `a` and `b` are the internal modules and `os` the only external one. */
  lemma ToyKinds()
    ensures Valid(ToyWithOs)
    ensures OfKind(Values(ToyWithOs), Internal) == [ToyA, ToyB]
    ensures OfKind(Values(ToyWithOs), External) == [ToyOs]
  {
    ToyValues();
    ToyListKinds(Internal);
    ToyListKinds(External);
  }

  lemma ToyListKinds(k: ModType)
    ensures OfKind([ToyA, ToyB, ToyOs], k) == if k == Internal then [ToyA, ToyB] else [ToyOs]
  {
    var ms := [ToyA, ToyB, ToyOs];
    assert ms[1..] == [ToyB, ToyOs] && ms[1..][1..] == [ToyOs] && ms[1..][1..][1..] == [];
    var os := if k == External then [ToyOs] else [];
    assert OfKind([ToyOs], k) == os;
    var ab := if k == Internal then [ToyA, ToyB] else [];
    assert OfKind(ms, k) == ab + os;
  }

  /** The visualizer of the loaded toy repository exists for any import
      counts, with `a`, `b` as its internal and `os` as its external modules. */
  lemma ToyVisualizer(importCount: string -> int)
    ensures LoadRepo(ToyFiles(ImportFrom(0, Some("b")))) == Success(ToyLoaded)
    ensures WellFormed(ToyLoaded)
    ensures MakeVisualizer(ToyLoaded, importCount).Success?
    ensures MakeVisualizer(ToyLoaded, importCount).value.intModules == [ToyA, ToyB]
    ensures MakeVisualizer(ToyLoaded, importCount).value.extModules == [ToyOs]
  {
    ToyRepoAbsoluteSibling();
    ToyKinds();
    assert ToyWithOs.entries["a"].kind == Internal && ToyWithOs.entries["os"].kind == External;
    MakeVisualizerFails(ToyLoaded, importCount);
    MakeVisualizerFields(ToyLoaded, importCount);
  }

  /** With the default options the toy repository cannot be drawn, whatever
      the import counts: `os` is the only external module, so the external
      colour normalizer has equal bounds and colouring it divides by zero. */
  lemma ToyVisualizeFails(importCount: string -> int)
    ensures LoadRepo(ToyFiles(ImportFrom(0, Some("b")))) == Success(ToyLoaded)
    ensures MakeVisualizer(ToyLoaded, importCount).Success?
    ensures var v := MakeVisualizer(ToyLoaded, importCount).value;
            && Consistent(v)
            && Visualize(v, DefaultOptions) == Failure(DivisionByZero)
  {
    ToyVisualizer(importCount);
    VisualizeFailsOnOneExternal(ToyLoaded, importCount);
  }

  /** `visualize(ext_color="gray")`: external nodes get a fixed colour. */
  const GrayExternals: Options := DefaultOptions.(extColor := Some("gray"))

  /** Import counts that tell `a` from `b`. */
  function ToyCounts(id: string): int
  {
    if id == "a" then 1 else 0
  }

  /** `a.py` holds two lines of code and the empty `b.py` none. */
  lemma ToyLocs()
    ensures Loc(ToyLoaded.files[0].content) == 2
    ensures Loc(ToyLoaded.files[1].content) == 0
  {
    ToyTextOfA();
    ToyLinesAreLoc();
    TwoLinesOfCode(ToyLoaded.files[0].content, "import os", "from b import x");
    assert SplitLines(FileB.content) == [];
  }

  /** The lines of `a.py`. */
  const ToyLinesOfA: seq<string> := ["import os", "from b import x"]

  lemma ToyTextOfA()
    ensures ToyLoaded.files[0].content == Unlines(ToyLinesOfA)
  {
    assert StmtLine(ImportFrom(0, Some("b"))) == "from b import x\n";
    UnlinesCons("from b import x", []);
    UnlinesCons("import os", ["from b import x"]);
    assert [ "import os"] + ["from b import x"] == ToyLinesOfA;
  }

  lemma ToyLinesAreLoc()
    ensures IsLoc("import os") && forall j :: 0 <= j < |"import os"| ==> !IsLineBreak("import os"[j])
    ensures IsLoc("from b import x") && forall j :: 0 <= j < |"from b import x"| ==> !IsLineBreak("from b import x"[j])
  {
    ImportLineIsLoc();
    FromLineIsLoc();
  }

  lemma ImportLineIsLoc()
    ensures IsLoc("import os") && forall j :: 0 <= j < |"import os"| ==> !IsLineBreak("import os"[j])
  {
    PlainLineIsLoc("import os");
  }

  lemma FromLineIsLoc()
    ensures IsLoc("from b import x") && forall j :: 0 <= j < |"from b import x"| ==> !IsLineBreak("from b import x"[j])
  {
    PlainLineIsLoc("from b import x");
  }

  /** Two lines of code written out with "\n" count as two. */
  lemma TwoLinesOfCode(content: string, l0: string, l1: string)
    requires content == Unlines([l0, l1])
    requires IsLoc(l0) && IsLoc(l1)
    requires forall j :: 0 <= j < |l0| ==> !IsLineBreak(l0[j])
    requires forall j :: 0 <= j < |l1| ==> !IsLineBreak(l1[j])
    ensures Loc(content) == 2
  {
    var lines := [l0, l1];
    forall k, j | 0 <= k < |lines| && 0 <= j < |lines[k]| ensures !IsLineBreak(lines[k][j]) {
      if k == 0 { assert lines[k] == l0; } else { assert lines[k] == l1; }
    }
    LocOfLines(lines);
    KeepTwoLines(l0, l1);
  }

  lemma KeepTwoLines(l0: string, l1: string)
    requires IsLoc(l0) && IsLoc(l1)
    ensures LocLines([l0, l1]) == [l0, l1]
  {
    var lines := [l0, l1];
    assert lines[1..] == [l1] && [l1][1..] == [];
    assert LocLines([l1]) == [l1];
  }

  /** A printable ASCII line that starts with a letter and ends without a
      blank is a line of code, and holds no line break. */
  lemma PlainLineIsLoc(line: string)
    requires forall j :: 0 <= j < |line| ==> ' ' <= line[j] <= '~'
    requires |line| > 0 && 'a' <= line[0] <= 'z' && line[|line| - 1] != ' '
    ensures IsLoc(line)
    ensures forall j :: 0 <= j < |line| ==> !IsLineBreak(line[j])
  {
    assert !IsSpace(line[0]);
    assert LStrip(line) == line;
    assert RStrip(line) == line;
    var t := Strip(line);
    assert t == line;
    assert t != "'''" && t != "\"\"\"" by { assert t[0] != '\'' && t[0] != '"'; }
    assert !IsClosingBracket(t[0]);
  }

  lemma ToyCountsDiffer()
    ensures !SameCounts([ToyA, ToyB], ToyCounts)
  {
    var ms := [ToyA, ToyB];
    assert ToyCounts(ms[0].id) != ToyCounts(ms[1].id);
  }

  /** With `ext_color` given and import counts that tell `a` from `b`, the
      toy repository is drawn, with a red edge to `os` and a blue edge to
      `b`. */
  lemma ToyVisualizeGray()
    ensures MakeVisualizer(ToyLoaded, ToyCounts).Success?
    ensures var v := MakeVisualizer(ToyLoaded, ToyCounts).value;
            && Consistent(v)
            && Visualize(v, GrayExternals).Success?
            && Visualize(v, GrayExternals).value.edges == [Edge("a", "os", Red), Edge("a", "b", Blue)]
  {
    ToyVisualizer(ToyCounts);
    ToyCountsDiffer();
    ToyLocs();
    assert !SameLocs(ToyLoaded.files) by {
      assert Loc(ToyLoaded.files[0].content) != Loc(ToyLoaded.files[1].content);
    }
    VisualizeOnDistinctSamples(ToyLoaded, ToyCounts, GrayExternals);
    ToyRepoEdges(GrayExternals);
  }
}

=== FILE: source_files.dfy ===
/** `PythonFile` of load.py: a discovered source file, the dotted module id
    derived from its relative path, and its logical line count. */
module SourceFiles {
  import opened Wrappers
  import opened Strings

  /** One import statement of the file's syntax tree, as `ast.walk` meets it.
      `Import(names)` is `import a.b, c`; `ImportFrom(level, moduleName)` is
      `from ..m import x, y` with `level` leading dots and an optional `m`. */
  datatype ImportStmt =
    | Import(names: seq<string>)
    | ImportFrom(level: nat, moduleName: Option<string>)

  /** A discovered file: its path below the source root as path segments, its
      text, and the import statements of its parsed text, in walk order. */
  datatype SourceFile = SourceFile(parts: seq<string>, content: string, stmts: seq<ImportStmt>)

  const InitFileName: string := "__init__.py"

  /** The file's base name, the last segment of its relative path. */
  function Name(f: SourceFile): string
  {
    if |f.parts| == 0 then "" else f.parts[|f.parts| - 1]
  }

  /** `module_id`: the path segments joined with '.', with every ".py" removed;
      a package initializer takes the id of its directory instead. */
  function ModuleId(f: SourceFile): string
  {
    if Name(f) == InitFileName then Join(DropLast(f.parts, 1), '.')
    else RemoveAll(Join(f.parts, '.'), ".py")
  }

  /** A plain module `d1/.../dn/m.py` gets the id `d1. ... .dn.m`, provided the
      joined text `d1. ... .dn.m` contains no ".py" (a segment that starts with
      "py" forms one with the dot before it). */
  lemma ModuleIdOfPlainFile(dirs: seq<string>, stem: string, content: string, stmts: seq<ImportStmt>)
    requires stem + ".py" != InitFileName
    requires !Contains(Join(dirs + [stem], '.'), ".py")
    ensures ModuleId(SourceFile(dirs + [stem + ".py"], content, stmts)) == Join(dirs + [stem], '.')
  {
    var f := SourceFile(dirs + [stem + ".py"], content, stmts);
    assert Name(f) == stem + ".py";
    var j := Join(dirs + [stem], '.');
    if |dirs| == 0 {
      assert dirs + [stem + ".py"] == [stem + ".py"];
      assert dirs + [stem] == [stem];
    } else {
      JoinSnoc(dirs, stem + ".py", '.');
      JoinSnoc(dirs, stem, '.');
    }
    assert Join(f.parts, '.') == j + ".py";
    RemoveAllPySuffix(j);
  }

  /** A package initializer `d1/.../dn/__init__.py` gets the id of its package,
      and a top-level `__init__.py` gets the empty id. */
  lemma ModuleIdOfInit(dirs: seq<string>, content: string, stmts: seq<ImportStmt>)
    ensures ModuleId(SourceFile(dirs + [InitFileName], content, stmts)) == Join(dirs, '.')
    ensures dirs == [] ==> ModuleId(SourceFile(dirs + [InitFileName], content, stmts)) == ""
  {
    var f := SourceFile(dirs + [InitFileName], content, stmts);
    assert DropLast(f.parts, 1) == dirs;
  }

  /** ".py" is removed wherever it occurs in the joined path, not only as the
      extension: the id is what is left of the text before and after it. */
  lemma ModuleIdRemovesInnerPy(parts: seq<string>, content: string, stmts: seq<ImportStmt>, a: string, b: string)
    requires Name(SourceFile(parts, content, stmts)) != InitFileName
    requires Join(parts, '.') == a + ".py" + b
    ensures ModuleId(SourceFile(parts, content, stmts)) == RemoveAll(a, ".py") + RemoveAll(b, ".py")
  {
    RemoveAllPyInfix(a, b);
  }

  /** A directory `d.py` contributes only `d`: `d.py/m.py` gets the id `d.m`. */
  lemma ModuleIdOfPyDirectory()
    ensures ModuleId(SourceFile(["d.py", "m.py"], "", [])) == "d.m"
  {
    var f := SourceFile(["d.py", "m.py"], "", []);
    assert Name(f) == "m.py";
    assert Join(f.parts, '.') == "d" + ".py" + ".m.py";
    ModuleIdRemovesInnerPy(f.parts, "", [], "d", ".m.py");
    RemoveAllPySuffix(".m");
    assert ".m" + ".py" == ".m.py";
  }

  /** The dot before a segment that starts with "py" forms a ".py" too, so
      `d/pym.py` gets the id `dm` rather than `d.pym` (for dot-free `d`, `m`). */
  lemma ModuleIdOfPySegment(d: string, m: string, content: string, stmts: seq<ImportStmt>)
    requires forall i :: 0 <= i < |d| ==> d[i] != '.'
    requires forall i :: 0 <= i < |m| ==> m[i] != '.'
    ensures ModuleId(SourceFile([d, "py" + m + ".py"], content, stmts)) == d + m
  {
    var f := SourceFile([d, "py" + m + ".py"], content, stmts);
    assert Name(f)[0] == 'p';
    assert Join(f.parts, '.') == d + ".py" + (m + ".py");
    ModuleIdRemovesInnerPy(f.parts, content, stmts, d, m + ".py");
    RemoveAllPySuffix(m);
    DotFreeKept(m);
    DotFreeKept(d);
  }

  /** `pkg/pyutils.py` gets the id "pkgutils", not "pkg.pyutils". */
  lemma ModuleIdOfPyutils()
    ensures ModuleId(SourceFile(["pkg", "pyutils.py"], "", [])) == "pkgutils"
  {
    assert "pyutils.py" == "py" + "utils" + ".py";
    ModuleIdOfPySegment("pkg", "utils", "", []);
  }

  /** Text without a '.' has no ".py" to remove. */
  lemma {:induction false} DotFreeKept(s: string)
    requires forall i :: 0 <= i < |s| ==> s[i] != '.'
    ensures RemoveAll(s, ".py") == s
    decreases |s|
  {
    if |s| >= 3 {
      assert s[..3][0] == s[0];
      DotFreeKept(s[1..]);
      assert [s[0]] + s[1..] == s;
    }
  }

  predicate IsClosingBracket(c: char) {
    c == ')' || c == ']' || c == '}'
  }

  /** `re.match(r"^[\)\]\}]*$", t)` on a stripped line: `t` is made of closing
      brackets only (the empty line included). */
  predicate OnlyClosingBrackets(t: string): (b: bool)
    ensures b <==> forall i :: 0 <= i < |t| ==> IsClosingBracket(t[i])
  {
    t == [] || (IsClosingBracket(t[0]) && OnlyClosingBrackets(t[1..]))
  }

  /** `is_loc`: a line counts unless, once stripped, it is empty, starts with
      '#', is a bare ''' or """, or holds nothing but closing brackets. */
  predicate IsLoc(line: string): (r: bool)
    ensures r <==>
      var t := Strip(line);
      && t != []
      && t[0] != '#'
      && t != "'''" && t != "\"\"\""
      && exists i :: 0 <= i < |t| && !IsClosingBracket(t[i])
  {
    if line == [] then false
    else
      var t := Strip(line);
      if |t| > 0 && t[0] == '#' then false
      else if t == "'''" || t == "\"\"\"" then false
      else if OnlyClosingBrackets(t) then false
      else true
  }

  /** Blank and whitespace-only lines are not lines of code. */
  lemma BlankLineIsNotLoc(line: string)
    requires forall i :: 0 <= i < |line| ==> IsSpace(line[i])
    ensures !IsLoc(line)
  {
  }

  /** A comment line, however indented, is not a line of code. */
  lemma CommentLineIsNotLoc(indent: string, text: string)
    requires forall i :: 0 <= i < |indent| ==> IsSpace(indent[i])
    ensures !IsLoc(indent + "#" + text)
  {
    var body := "#" + text;
    var line := indent + body;
    assert indent + "#" + text == line;
    StripPadded(indent, body);
    assert body[0] == '#';
    assert LStrip(body) == body;
    var t := RStrip(body);
    assert Strip(line) == t;
    assert t != [] by {
      assert !IsSpace(body[0]);
    }
    assert t[0] == '#';
  }

  /** Closing brackets separated by a blank are a line of code: only an
      uninterrupted run of brackets is excluded. */
  lemma SpacedBracketsAreLoc()
    ensures IsLoc(") )")
  {
    var t := Strip(") )");
    assert LStrip(") )") == ") )";
    assert RStrip(") )") == ") )";
    assert t[1] == ' ';
  }

  /** `[line for line in lines if is_loc(line)]`. */
  function LocLines(lines: seq<string>): (r: seq<string>)
    ensures |r| <= |lines|
  {
    if lines == [] then []
    else (if IsLoc(lines[0]) then [lines[0]] else []) + LocLines(lines[1..])
  }

  /** The kept lines are exactly the lines of code, each as often as it was
      written. */
  lemma {:induction false} LocLinesKeepsLinesOfCode(lines: seq<string>)
    ensures forall x :: multiset(LocLines(lines))[x] == if IsLoc(x) then multiset(lines)[x] else 0
  {
    if lines != [] {
      LocLinesKeepsLinesOfCode(lines[1..]);
      assert lines == [lines[0]] + lines[1..];
      assert multiset(lines) == multiset{lines[0]} + multiset(lines[1..]);
    }
  }

  /** `loc`: the number of logical lines of the file's text. */
  function Loc(content: string): nat
  {
    |LocLines(SplitLines(content))|
  }

  /** The count is the number of written lines that are lines of code. */
  lemma LocOfLines(lines: seq<string>)
    requires forall k, j :: 0 <= k < |lines| && 0 <= j < |lines[k]| ==> !IsLineBreak(lines[k][j])
    ensures Loc(Unlines(lines)) == |LocLines(lines)|
    ensures Loc(Unlines(lines)) <= |lines|
  {
    UnlinesRoundTrip(lines);
  }

  /** The `loc` property with its `_loc` cache: a missing or zero cache
      (falsy in Python) is recounted and stored, any other cached value is
      returned as is. The cache only ever holds the true count. */
  function CachedLoc(cache: Option<nat>, content: string): (r: (nat, Option<nat>))
    requires cache == None || cache == Some(Loc(content))
    ensures r.0 == Loc(content)
    ensures r.1 == Some(Loc(content))
  {
    if cache == None || cache.value == 0 then (Loc(content), Some(Loc(content)))
    else (cache.value, cache)
  }

  /** Asking for `loc` again returns the same count and leaves the cache as it was. */
  lemma CachedLocIsStable(cache: Option<nat>, content: string)
    requires cache == None || cache == Some(Loc(content))
    ensures CachedLoc(CachedLoc(cache, content).1, content) == CachedLoc(cache, content)
  {
  }
}

=== FILE: strings.dfy ===
/** The handful of Python string and sequence operations the loader relies on:
    `sep.join`, `s.split(".")[0]`, `s.replace(pat, "")`, `s.strip()`,
    `s.splitlines()` and the negative slice `xs[:-n]`. */
module Strings {

  /** `sep.join(parts)`: the parts with one separator between neighbours. */
  function Join(parts: seq<string>, sep: char): (r: string)
    ensures |parts| > 0 ==> parts[0] <= r
    ensures |parts| > 1 ==> |parts[0]| < |r| && r[|parts[0]|] == sep
    ensures |parts| == 1 ==> r == parts[0]
  {
    if |parts| == 0 then ""
    else if |parts| == 1 then parts[0]
    else parts[0] + [sep] + Join(parts[1..], sep)
  }

  /** Joining one more part appends a separator and that part. */
  lemma {:induction false} JoinSnoc(parts: seq<string>, last: string, sep: char)
    requires |parts| > 0
    ensures Join(parts + [last], sep) == Join(parts, sep) + [sep] + last
  {
    if |parts| == 1 {
      assert parts + [last] == [parts[0], last];
      assert (parts + [last])[1..] == [last];
    } else {
      assert (parts + [last])[1..] == parts[1..] + [last];
      JoinSnoc(parts[1..], last, sep);
    }
  }

  /** `xs[:-n]` for a positive `n`: all but the last `n` elements, or nothing
      when there are no more than `n` of them. */
  function DropLast<T>(xs: seq<T>, n: nat): (r: seq<T>)
    requires n > 0
    ensures |r| == if n >= |xs| then 0 else |xs| - n
    ensures r <= xs
  {
    if n >= |xs| then [] else xs[..|xs| - n]
  }

  /** `s.split(".")[0]`: everything before the first '.', or all of `s` when it has none. */
  function Head(s: string): (r: string)
    ensures r <= s
    ensures '.' !in r
    ensures |r| < |s| ==> s[|r|] == '.'
  {
    if |s| == 0 || s[0] == '.' then "" else [s[0]] + Head(s[1..])
  }

  /** The head of a dotted name is its first segment: `import a.b.c` is keyed by `a`. */
  lemma HeadOfDotted(parts: seq<string>)
    requires |parts| > 0
    requires '.' !in parts[0]
    ensures Head(Join(parts, '.')) == parts[0]
  {
  }

  /** Python's `pat in s`. */
  predicate Contains(s: string, pat: string)
    decreases |s|
  {
    |pat| <= |s| && (s[..|pat|] == pat || Contains(s[1..], pat))
  }

  /** `s.replace(pat, "")`: scans left to right and deletes every
      non-overlapping occurrence of `pat`, wherever it is in `s`. */
  function RemoveAll(s: string, pat: string): (r: string)
    requires pat != []
    ensures |r| <= |s|
    ensures !Contains(s, pat) ==> r == s
    decreases |s|
  {
    if |s| < |pat| then s
    else if s[..|pat|] == pat then RemoveAll(s[|pat|..], pat)
    else [s[0]] + RemoveAll(s[1..], pat)
  }

  /** A trailing ".py" is always removed, and removing it does not disturb the
      scan of what comes before: no occurrence can straddle the boundary. */
  lemma RemoveAllPySuffix(a: string)
    ensures RemoveAll(a + ".py", ".py") == RemoveAll(a, ".py")
  {
    RemoveAllPyInfix(a, "");
    assert a + ".py" + "" == a + ".py";
  }

  /** No proper suffix of `pat` is also a prefix of it, so two occurrences
      of `pat` can never overlap. */
  predicate NoSelfOverlap(pat: string)
  {
    forall k :: 0 < k < |pat| ==> pat[k..] != pat[..|pat| - k]
  }

  /** ".py" cannot overlap itself. */
  lemma PyNoSelfOverlap()
    ensures NoSelfOverlap(".py")
  {
    var p := ".py";
    assert p[1..][0] != p[..2][0];
    assert p[2..][0] != p[..1][0];
  }

  /** An occurrence of a pattern that cannot overlap itself splits the scan
      in two: the text before it and the text after it are cleaned
      independently. */
  lemma {:induction false} RemoveAllInfix(a: string, pat: string, b: string)
    requires pat != [] && NoSelfOverlap(pat)
    ensures RemoveAll(a + pat + b, pat) == RemoveAll(a, pat) + RemoveAll(b, pat)
    decreases |a|
  {
    var s := a + pat + b;
    if |a| == 0 {
      assert s[..|pat|] == pat && s[|pat|..] == b;
    } else if |a| >= |pat| && a[..|pat|] == pat {
      assert s[..|pat|] == pat;
      assert s[|pat|..] == a[|pat|..] + pat + b;
      RemoveAllInfix(a[|pat|..], pat, b);
    } else {
      InfixMiss(a, pat, b);
      assert s[1..] == a[1..] + pat + b;
      RemoveAllInfix(a[1..], pat, b);
      if |a| < |pat| {
        assert a == [a[0]] + a[1..];
      }
    }
  }

  /** When `a` is non-empty and does not start with `pat`, neither does
      `a + pat + b`. */
  lemma InfixMiss(a: string, pat: string, b: string)
    requires pat != [] && NoSelfOverlap(pat)
    requires |a| > 0 && !(|a| >= |pat| && a[..|pat|] == pat)
    ensures (a + pat + b)[..|pat|] != pat
  {
    var s := a + pat + b;
    if |a| >= |pat| {
      assert s[..|pat|] == a[..|pat|];
    } else {
      var k := |a|;
      assert s[..|pat|][k..] == s[k..|pat|] == pat[..|pat| - k];
      assert pat[k..] != pat[..|pat| - k];
    }
  }

  /** An occurrence of ".py" splits the scan in two: what comes before it
      and what comes after it are cleaned independently. */
  lemma RemoveAllPyInfix(a: string, b: string)
    ensures RemoveAll(a + ".py" + b, ".py") == RemoveAll(a, ".py") + RemoveAll(b, ".py")
  {
    PyNoSelfOverlap();
    RemoveAllInfix(a, ".py", b);
  }

  /** Characters for which Python's `str.isspace` holds; `str.strip()` removes these. */
  predicate IsSpace(c: char) {
    || c == ' ' || c == '\t' || c == '\n' || c == '\r'
    || c == '\U{000B}' || c == '\U{000C}'
    || c == '\U{001C}' || c == '\U{001D}' || c == '\U{001E}' || c == '\U{001F}'
    || c == '\U{0085}' || c == '\U{00A0}' || c == '\U{1680}'
    || ('\U{2000}' <= c <= '\U{200A}')
    || c == '\U{2028}' || c == '\U{2029}' || c == '\U{202F}' || c == '\U{205F}'
    || c == '\U{3000}'
  }

  /** `s.lstrip()`: the suffix of `s` left after its leading whitespace. */
  function LStrip(s: string): (r: string)
    ensures |r| <= |s| && r == s[|s| - |r|..]
    ensures forall i :: 0 <= i < |s| - |r| ==> IsSpace(s[i])
    ensures r != [] ==> !IsSpace(r[0])
  {
    if |s| > 0 && IsSpace(s[0]) then LStrip(s[1..]) else s
  }

  /** `s.rstrip()`: the prefix of `s` left after its trailing whitespace. */
  function RStrip(s: string): (r: string)
    ensures r <= s
    ensures forall i :: |r| <= i < |s| ==> IsSpace(s[i])
    ensures r != [] ==> !IsSpace(r[|r| - 1])
  {
    if |s| > 0 && IsSpace(s[|s| - 1]) then RStrip(s[..|s| - 1]) else s
  }

  /** `s.strip()`: `s` without its leading and trailing whitespace. It is empty
      exactly when `s` is all whitespace. */
  function Strip(s: string): (r: string)
    ensures r == [] <==> forall i :: 0 <= i < |s| ==> IsSpace(s[i])
    ensures r != [] ==> !IsSpace(r[0]) && !IsSpace(r[|r| - 1])
  {
    RStrip(LStrip(s))
  }

  /** Leading whitespace does not change what `lstrip` keeps, nor what
      `strip` keeps. */
  lemma {:induction false} StripPadded(ws: string, t: string)
    requires forall i :: 0 <= i < |ws| ==> IsSpace(ws[i])
    ensures LStrip(ws + t) == LStrip(t)
    ensures Strip(ws + t) == Strip(t)
    decreases |ws|
  {
    if |ws| > 0 {
      assert (ws + t)[0] == ws[0];
      assert (ws + t)[1..] == ws[1..] + t;
      StripPadded(ws[1..], t);
    } else {
      assert ws + t == t;
    }
  }

  /** The characters at which `str.splitlines` breaks a line. */
  predicate IsLineBreak(c: char) {
    || c == '\n' || c == '\r' || c == '\U{000B}' || c == '\U{000C}'
    || c == '\U{001C}' || c == '\U{001D}' || c == '\U{001E}'
    || c == '\U{0085}' || c == '\U{2028}' || c == '\U{2029}'
  }

  /** The position of the first line break in `s`, or `|s|` if there is none. */
  function FirstBreak(s: string): (i: nat)
    ensures i <= |s|
    ensures forall j :: 0 <= j < i ==> !IsLineBreak(s[j])
    ensures i < |s| ==> IsLineBreak(s[i])
  {
    if s == [] || IsLineBreak(s[0]) then 0 else 1 + FirstBreak(s[1..])
  }

  /** `s.splitlines()`: the lines of `s` without their terminators; "\r\n" ends
      one line, and a final terminator does not start an empty last line. */
  function SplitLines(s: string): seq<string>
    decreases |s|
  {
    if s == [] then []
    else
      var i := FirstBreak(s);
      if i == |s| then [s]
      else [s[..i]] + SplitLines(s[NextLine(s, i)..])
  }

  /** Where the line after the break at `i` starts: "\r\n" is one break. */
  function NextLine(s: string, i: nat): (j: nat)
    requires i < |s|
    ensures i < j <= |s|
  {
    if s[i] == '\r' && i + 1 < |s| && s[i + 1] == '\n' then i + 2 else i + 1
  }

  /** Each line followed by "\n", concatenated: the text `splitlines` undoes. */
  function Unlines(lines: seq<string>): string
  {
    if lines == [] then "" else lines[0] + "\n" + Unlines(lines[1..])
  }

  /** Unlines of a line followed by more lines. */
  lemma UnlinesCons(line: string, lines: seq<string>)
    ensures Unlines([line] + lines) == line + "\n" + Unlines(lines)
  {
    assert ([line] + lines)[1..] == lines;
  }

  /** The "\n" that `Unlines` adds after the last line when the text lacks one. */
  function MissingNewline(s: string): string
  {
    if s != [] && s[|s| - 1] != '\n' then "\n" else ""
  }

  /** Every line break in `s` is a plain "\n". */
  predicate OnlyNewlineBreaks(s: string)
  {
    forall i :: 0 <= i < |s| && IsLineBreak(s[i]) ==> s[i] == '\n'
  }

  /** A sequence is its prefix before `i`, its element at `i`, and its suffix after `i`. */
  lemma SplitAt(s: string, i: nat)
    requires i < |s|
    ensures s == s[..i] + [s[i]] + s[i + 1..]
    ensures s[i + 1..] != [] ==> s[i + 1..][|s[i + 1..]| - 1] == s[|s| - 1]
  {
  }

  /** `splitlines` cuts the line before a first break that is a plain "\n". */
  lemma SplitLinesAtNewline(s: string, i: nat)
    requires i == FirstBreak(s) && i < |s| && s[i] == '\n'
    ensures SplitLines(s) == [s[..i]] + SplitLines(s[i + 1..])
  {
    assert NextLine(s, i) == i + 1;
  }

  /** The text after a "\n" lacks a final "\n" exactly when the whole text does. */
  lemma MissingNewlineAfter(s: string, i: nat)
    requires i < |s| && s[i] == '\n'
    ensures MissingNewline(s[i + 1..]) == MissingNewline(s)
  {
    SplitAt(s, i);
  }

  /** The step of the round trip at the first "\n" of `s`, given the round trip
      of the text after it. */
  lemma RoundTripAtBreak(s: string, i: nat)
    requires i == FirstBreak(s) && i < |s| && s[i] == '\n'
    requires Unlines(SplitLines(s[i + 1..])) == s[i + 1..] + MissingNewline(s[i + 1..])
    ensures Unlines(SplitLines(s)) == s + MissingNewline(s)
  {
    var rest := s[i + 1..];
    var line := s[..i];
    SplitLinesAtNewline(s, i);
    UnlinesCons(line, SplitLines(rest));
    MissingNewlineAfter(s, i);
    SplitAt(s, i);
    Reassociate(line, rest, MissingNewline(s));
  }

  /** Text after a line's "\n" and text appended to it regroup freely. */
  lemma Reassociate(line: string, rest: string, tail: string)
    ensures line + "\n" + (rest + tail) == (line + "\n" + rest) + tail
  {
  }

  /** Text whose only line break is "\n" is recovered from its lines, up to the
      final "\n" that `splitlines` does not record. */
  lemma {:induction false} SplitLinesRoundTrip(s: string)
    requires OnlyNewlineBreaks(s)
    ensures Unlines(SplitLines(s)) == s + MissingNewline(s)
    decreases |s|
  {
    if s != [] {
      var i := FirstBreak(s);
      if i == |s| {
        assert !IsLineBreak(s[|s| - 1]);
        assert SplitLines(s) == [s];
        UnlinesCons(s, []);
      } else {
        var rest := s[i + 1..];
        assert OnlyNewlineBreaks(rest) by {
          forall j | 0 <= j < |rest| && IsLineBreak(rest[j]) ensures rest[j] == '\n' {
            assert rest[j] == s[i + 1 + j];
          }
        }
        SplitLinesRoundTrip(rest);
        RoundTripAtBreak(s, i);
      }
    }
  }

  /** Lines without line breaks survive being written out and split again. */
  lemma {:induction false} UnlinesRoundTrip(lines: seq<string>)
    requires forall k, j :: 0 <= k < |lines| && 0 <= j < |lines[k]| ==> !IsLineBreak(lines[k][j])
    ensures SplitLines(Unlines(lines)) == lines
  {
    if lines != [] {
      var s := Unlines(lines);
      var rest := Unlines(lines[1..]);
      assert s == lines[0] + "\n" + rest;
      assert s[|lines[0]|] == '\n';
      assert forall j :: 0 <= j < |lines[0]| ==> s[j] == lines[0][j];
      assert FirstBreak(s) == |lines[0]|;
      assert s[..|lines[0]|] == lines[0];
      assert s[|lines[0]| + 1..] == rest;
      UnlinesRoundTrip(lines[1..]);
    }
  }
}

=== FILE: visualizer.dfy ===
/** The decisions of `ModuleVisualizer` in visualizer.py: which modules become
    nodes, how each node is sized, shaped and labelled, and which imports
    become edges. Colour maps, layout and drawing are not modelled; a node's
    fill records either the colour given or the colour-map position it would
    be looked up at. */
module Visualizer {
  import opened Wrappers
  import opened SourceFiles
  import opened ModuleStore
  import opened Loader
  import opened Normalizers

  const MinNodeSize: real := 0.2
  const MaxNodeSize: real := 1.0
  /** `mean_node_size`, the size of every external node without a given size. */
  const MeanNodeSize: real := (MaxNodeSize + MinNodeSize) / 2.0

  /** The modules of kind `k`, in the order given. */
  function OfKind(ms: seq<Module>, k: ModType): (r: seq<Module>)
    ensures forall m :: m in r <==> m in ms && m.kind == k
  {
    if ms == [] then []
    else (if ms[0].kind == k then [ms[0]] else []) + OfKind(ms[1..], k)
  }

  /** The list of a kind keeps the given order: the modules of a kind in
      two lists one after the other are those of the first list, then those
      of the second. */
  lemma {:induction false} OfKindAppend(xs: seq<Module>, ys: seq<Module>, k: ModType)
    ensures OfKind(xs + ys, k) == OfKind(xs, k) + OfKind(ys, k)
  {
    if xs == [] {
      assert xs + ys == ys;
    } else {
      assert (xs + ys)[0] == xs[0];
      assert (xs + ys)[1..] == xs[1..] + ys;
      OfKindAppend(xs[1..], ys, k);
    }
  }

  /** The modules of a kind in store order: a module stored under a new key
      comes after every earlier module of its kind, and one of another kind
      leaves the list unchanged. */
  lemma OfKindAfterPut(s: Store, key: string, m: Module, k: ModType)
    requires Valid(s) && key !in s.entries
    ensures OfKind(Values(Put(s, key, m)), k) == OfKind(Values(s), k) + (if m.kind == k then [m] else [])
  {
    ValuesPut(s, key, m);
    OfKindAppend(Values(s), [m], k);
    assert OfKind([m], k) == (if m.kind == k then [m] else []) + OfKind([], k) by {
      assert [m][1..] == [];
    }
  }

  /** Every module is in exactly one of the two lists, as often as it was
      in the input. */
  lemma {:induction false} OfKindPartition(ms: seq<Module>)
    ensures multiset(OfKind(ms, Internal)) + multiset(OfKind(ms, External)) == multiset(ms)
  {
    if ms != [] {
      OfKindPartition(ms[1..]);
      assert ms == [ms[0]] + ms[1..];
    }
  }

  /** The `import_count` of each module, which the loader never sets: here an
      input of the visualizer. */
  function ImportCounts(ms: seq<Module>, importCount: string -> int): (cs: seq<real>)
    ensures |cs| == |ms|
    ensures forall i :: 0 <= i < |ms| ==> cs[i] == importCount(ms[i].id) as real
  {
    seq(|ms|, i requires 0 <= i < |ms| => importCount(ms[i].id) as real)
  }

  /** The `loc` of each file. */
  function Locs(files: seq<SourceFile>): (ls: seq<real>)
    ensures |ls| == |files|
    ensures forall i :: 0 <= i < |files| ==> ls[i] == Loc(files[i].content) as real
  {
    seq(|files|, i requires 0 <= i < |files| => Loc(files[i].content) as real)
  }

  /** The state `__init__` builds: the loaded repository, the import counts,
      the internal and external modules in store order, and the three
      normalizers. */
  datatype ModuleVisualizer = ModuleVisualizer(
    repo: LoadedRepo,
    importCount: string -> int,
    intModules: seq<Module>,
    extModules: seq<Module>,
    colorNormInt: Normalizer,
    locSizeNorm: Normalizer,
    colorNormExt: Normalizer)

  /** What `__init__` establishes: the repository is a loaded one, the two
      lists split the store by kind, sizes are scaled from the files' line
      counts onto `[0.2, 1]`, and colours from the import counts of each kind
      onto `[0, 1]`. */
  ghost predicate Consistent(v: ModuleVisualizer)
  {
    && WellFormed(v.repo)
    && (forall m :: m in v.intModules <==> m in v.repo.store.entries.Values && m.kind == Internal)
    && (forall m :: m in v.extModules <==> m in v.repo.store.entries.Values && m.kind == External)
    && v.locSizeNorm.newMin == MinNodeSize && v.locSizeNorm.newMax == MaxNodeSize
    && (forall i :: 0 <= i < |v.repo.files| ==>
          v.locSizeNorm.lo <= Loc(v.repo.files[i].content) as real <= v.locSizeNorm.hi)
    && v.colorNormInt.newMin == 0.0 && v.colorNormInt.newMax == 1.0
    && (forall m :: m in v.intModules ==>
          v.colorNormInt.lo <= v.importCount(m.id) as real <= v.colorNormInt.hi)
    && v.colorNormExt.newMin == 0.0 && v.colorNormExt.newMax == 1.0
    && (forall m :: m in v.extModules ==>
          v.colorNormExt.lo <= v.importCount(m.id) as real <= v.colorNormExt.hi)
  }

  /** `ModuleVisualizer(repo)`: split the store's modules by kind and build
      the colour normalizer of each kind and the size normalizer over the
      files' line counts. */
  function MakeVisualizer(repo: LoadedRepo, importCount: string -> int): (r: Result<ModuleVisualizer, NormError>)
    requires Valid(repo.store)
    ensures r.Failure? ==> r.error == EmptyData
    ensures r.Success? ==> r.value.repo == repo
  {
    var values := Values(repo.store);
    var ints := OfKind(values, Internal);
    var colorInt :- MakeNormalizer(ImportCounts(ints, importCount), 0.0, 1.0);
    var locNorm :- MakeNormalizer(Locs(repo.files), MinNodeSize, MaxNodeSize);
    var exts := OfKind(values, External);
    var colorExt :- MakeNormalizer(ImportCounts(exts, importCount), 0.0, 1.0);
    Success(ModuleVisualizer(repo, importCount, ints, exts, colorInt, locNorm, colorExt))
  }

  /** Each of the three normalizers fails on an empty sample, so construction
      fails exactly when the store has no internal module, there is no file,
      or the store has no external module. */
  lemma MakeVisualizerFails(repo: LoadedRepo, importCount: string -> int)
    requires Valid(repo.store)
    ensures MakeVisualizer(repo, importCount).Failure? <==>
              || (forall k :: k in repo.store.entries ==> repo.store.entries[k].kind != Internal)
              || repo.files == []
              || (forall k :: k in repo.store.entries ==> repo.store.entries[k].kind != External)
  {
    var values := Values(repo.store);
    ValuesAreStored(repo.store);
    KindPresent(repo.store, Internal);
    KindPresent(repo.store, External);
  }

  /** The list of one kind is empty exactly when the store holds no module of that kind. */
  lemma KindPresent(s: Store, k: ModType)
    requires Valid(s)
    ensures OfKind(Values(s), k) == [] <==> forall key :: key in s.entries ==> s.entries[key].kind != k
  {
    ValuesAreStored(s);
    if OfKind(Values(s), k) != [] {
      var m := OfKind(Values(s), k)[0];
      assert m in OfKind(Values(s), k);
      var key :| key in s.entries && s.entries[key] == m;
    } else {
      forall key | key in s.entries ensures s.entries[key].kind != k {
        assert s.entries[key] in s.entries.Values;
      }
    }
  }

  /** A visualizer built from a loaded repository satisfies `Consistent`. */
  lemma MakeVisualizerConsistent(repo: LoadedRepo, importCount: string -> int)
    requires WellFormed(repo)
    requires MakeVisualizer(repo, importCount).Success?
    ensures Consistent(MakeVisualizer(repo, importCount).value)
  {
    MakeVisualizerSplits(repo, importCount);
    MakeVisualizerScales(repo, importCount);
  }

  /** The two lists of a built visualizer split the store by kind. */
  lemma MakeVisualizerSplits(repo: LoadedRepo, importCount: string -> int)
    requires Valid(repo.store)
    requires MakeVisualizer(repo, importCount).Success?
    ensures var v := MakeVisualizer(repo, importCount).value;
            && (forall m :: m in v.intModules <==> m in repo.store.entries.Values && m.kind == Internal)
            && (forall m :: m in v.extModules <==> m in repo.store.entries.Values && m.kind == External)
  {
    ValuesAreStored(repo.store);
  }

  /** The normalizers of a built visualizer scale onto the node-size range
      and the unit colour range, and their observed ranges cover every
      file's line count and every module's import count. */
  lemma MakeVisualizerScales(repo: LoadedRepo, importCount: string -> int)
    requires Valid(repo.store)
    requires MakeVisualizer(repo, importCount).Success?
    ensures var v := MakeVisualizer(repo, importCount).value;
            && v.importCount == importCount
            && v.locSizeNorm.newMin == MinNodeSize && v.locSizeNorm.newMax == MaxNodeSize
            && (forall i :: 0 <= i < |repo.files| ==>
                  v.locSizeNorm.lo <= Loc(repo.files[i].content) as real <= v.locSizeNorm.hi)
            && v.colorNormInt.newMin == 0.0 && v.colorNormInt.newMax == 1.0
            && (forall m :: m in v.intModules ==> v.colorNormInt.lo <= importCount(m.id) as real <= v.colorNormInt.hi)
            && v.colorNormExt.newMin == 0.0 && v.colorNormExt.newMax == 1.0
            && (forall m :: m in v.extModules ==> v.colorNormExt.lo <= importCount(m.id) as real <= v.colorNormExt.hi)
  {
    var v := MakeVisualizer(repo, importCount).value;
    MakeVisualizerFields(repo, importCount);
    LocsInRange(repo.files, v.locSizeNorm);
    CountsInRange(v.intModules, importCount, v.colorNormInt);
    CountsInRange(v.extModules, importCount, v.colorNormExt);
  }

  /** The fields of a built visualizer are the kind lists and the
      normalizers built over them. */
  lemma MakeVisualizerFields(repo: LoadedRepo, importCount: string -> int)
    requires Valid(repo.store)
    requires MakeVisualizer(repo, importCount).Success?
    ensures var v := MakeVisualizer(repo, importCount).value;
            && v.importCount == importCount
            && v.intModules == OfKind(Values(repo.store), Internal)
            && v.extModules == OfKind(Values(repo.store), External)
            && MakeNormalizer(ImportCounts(v.intModules, importCount), 0.0, 1.0) == Success(v.colorNormInt)
            && MakeNormalizer(Locs(repo.files), MinNodeSize, MaxNodeSize) == Success(v.locSizeNorm)
            && MakeNormalizer(ImportCounts(v.extModules, importCount), 0.0, 1.0) == Success(v.colorNormExt)
  {
  }

  /** Every file's line count lies in the range of the size normalizer built from them. */
  lemma LocsInRange(files: seq<SourceFile>, n: Normalizer)
    requires MakeNormalizer(Locs(files), MinNodeSize, MaxNodeSize) == Success(n)
    ensures n.newMin == MinNodeSize && n.newMax == MaxNodeSize
    ensures forall i :: 0 <= i < |files| ==> n.lo <= Loc(files[i].content) as real <= n.hi
  {
    forall i | 0 <= i < |files| ensures n.lo <= Loc(files[i].content) as real <= n.hi {
      assert Locs(files)[i] == Loc(files[i].content) as real;
    }
  }

  /** Every module's count lies in the range of the normalizer built from the counts. */
  lemma CountsInRange(ms: seq<Module>, importCount: string -> int, n: Normalizer)
    requires MakeNormalizer(ImportCounts(ms, importCount), 0.0, 1.0) == Success(n)
    ensures n.newMin == 0.0 && n.newMax == 1.0
    ensures forall m :: m in ms ==> n.lo <= importCount(m.id) as real <= n.hi
  {
    forall m | m in ms ensures n.lo <= importCount(m.id) as real <= n.hi {
      var i :| 0 <= i < |ms| && ms[i] == m;
      assert ImportCounts(ms, importCount)[i] == importCount(m.id) as real;
    }
  }

  /** A successfully loaded repository can be visualized exactly when it has
      a file and imports at least one external module. */
  lemma VisualizerOfLoadedRepo(files: seq<SourceFile>, importCount: string -> int)
    requires LoadRepo(files).Success?
    ensures MakeVisualizer(LoadRepo(files).value, importCount).Success? <==>
              files != [] && exists k :: k in LoadRepo(files).value.store.entries
                                     && LoadRepo(files).value.store.entries[k].kind == External
  {
    var repo := LoadRepo(files).value;
    MakeVisualizerFails(repo, importCount);
    if files != [] {
      assert ModuleIds(files)[0] in repo.store.entries;
    }
  }

  datatype Shape = Circle | Box

  /** The fill colour: one given by the caller, or the position on the named
      colour map that `_get_node_color` would look up. */
  datatype Fill = Given(color: string) | Scaled(cmap: string, position: real)

  /** The attributes `_add_node` gives a node. */
  datatype Node = Node(
    id: string,
    height: real,
    width: real,
    fill: Fill,
    shape: Shape,
    fontSize: real,
    nodeLabel: string,
    xlabel: string)

  /** Python truthiness of an optional colour: present and non-empty. */
  predicate ColorGiven(color: Option<string>)
  {
    color.Some? && color.value != ""
  }

  /** Python truthiness of an optional size: present and non-zero. */
  predicate SizeGiven(size: Option<real>)
  {
    size.Some? && size.value != 0.0
  }

  /** An internal module names one of the repository's files. */
  predicate HasFile(v: ModuleVisualizer, m: Module)
  {
    m.kind == Internal ==> m.file.Some? && m.file.value < |v.repo.files|
  }

  /** The colour normalizer of the module's kind. */
  function ColorNorm(v: ModuleVisualizer, m: Module): Normalizer
  {
    if m.kind == Internal then v.colorNormInt else v.colorNormExt
  }

  /** The colour choice of `_add_node`: a given colour is used as it is;
      otherwise the colour is looked up at the module's import count scaled by
      the normalizer of its kind. */
  function NodeColor(v: ModuleVisualizer, m: Module, color: Option<string>, cmapName: string): (r: Result<Fill, NormError>)
    ensures r.Failure? <==> !ColorGiven(color) && Degenerate(ColorNorm(v, m))
    ensures r.Failure? ==> r.error == DivisionByZero
    ensures ColorGiven(color) ==> r == Success(Given(color.value))
    ensures r.Success? && !ColorGiven(color) ==> r.value.Scaled? && r.value.cmap == cmapName
  {
    if ColorGiven(color) then Success(Given(color.value))
    else
      var t :- Normalize(ColorNorm(v, m), v.importCount(m.id) as real);
      Success(Scaled(cmapName, t))
  }

  /** The size choice of `_add_node`: a given size is used as it is;
      otherwise an internal node is sized by its file's line count and an
      external one takes the mean size. */
  function NodeSize(v: ModuleVisualizer, m: Module, size: Option<real>): (r: Result<real, NormError>)
    requires HasFile(v, m)
    ensures r.Failure? <==> !SizeGiven(size) && m.kind == Internal && Degenerate(v.locSizeNorm)
    ensures r.Failure? ==> r.error == DivisionByZero
    ensures SizeGiven(size) ==> r == Success(size.value)
    ensures !SizeGiven(size) && m.kind == External ==> r == Success(MeanNodeSize)
  {
    if SizeGiven(size) then Success(size.value)
    else if m.kind == Internal then Normalize(v.locSizeNorm, Loc(v.repo.files[m.file.value].content) as real)
    else Success(MeanNodeSize)
  }

  /** `_add_node`: the chosen colour and size, the size scaled by the adjuster
      in both dimensions; internal modules are circles and external ones
      boxes; the id goes in the label, or in the external label when `xlabel`
      is set. */
  function AddNode(v: ModuleVisualizer, m: Module, color: Option<string>, cmapName: string,
                   size: Option<real>, sizeAdjuster: real, fontSize: real, xlabel: bool): (r: Result<Node, NormError>)
    requires HasFile(v, m)
    ensures r.Failure? <==> NodeColor(v, m, color, cmapName).Failure? || NodeSize(v, m, size).Failure?
    ensures r.Success? ==>
              && r.value.id == m.id
              && r.value.fill == NodeColor(v, m, color, cmapName).value
              && r.value.height == r.value.width == NodeSize(v, m, size).value * sizeAdjuster
              && r.value.fontSize == fontSize
    ensures r.Success? ==> (r.value.shape == Circle <==> m.kind == Internal)
    ensures r.Success? ==> if xlabel then r.value.nodeLabel == "" && r.value.xlabel == m.id
                           else r.value.nodeLabel == m.id && r.value.xlabel == ""
  {
    var fill :- NodeColor(v, m, color, cmapName);
    var sz :- NodeSize(v, m, size);
    Success(Node(m.id, sz * sizeAdjuster, sz * sizeAdjuster, fill,
                 if m.kind == Internal then Circle else Box, fontSize,
                 if xlabel then "" else m.id,
                 if xlabel then m.id else ""))
  }

  /** Without a given size, an internal node of a consistent visualizer is
      between `0.2` and `1` in size: the file's line count lies in the
      observed range, which is scaled onto `[0.2, 1]`. */
  lemma InternalNodeSize(v: ModuleVisualizer, m: Module, size: Option<real>)
    requires Consistent(v) && HasFile(v, m) && m.kind == Internal && !SizeGiven(size)
    requires NodeSize(v, m, size).Success?
    ensures MinNodeSize <= NodeSize(v, m, size).value <= MaxNodeSize
  {
    var loc := Loc(v.repo.files[m.file.value].content) as real;
    NormalizeInRange(v.locSizeNorm, loc);
  }

  /** Without a given colour, a module of a consistent visualizer is looked
      up at a colour-map position in `[0, 1]`. */
  lemma ColorPositionInRange(v: ModuleVisualizer, m: Module, color: Option<string>, cmapName: string)
    requires Consistent(v) && !ColorGiven(color)
    requires m in v.intModules || m in v.extModules
    requires NodeColor(v, m, color, cmapName).Success?
    ensures 0.0 <= NodeColor(v, m, color, cmapName).value.position <= 1.0
  {
    NormalizeInRange(ColorNorm(v, m), v.importCount(m.id) as real);
  }

  /** Without a given colour, a module with no more imports than another
      of its kind is looked up no further along the colour map. */
  lemma NodeColorMonotone(v: ModuleVisualizer, m1: Module, m2: Module, color: Option<string>, cmapName: string)
    requires Consistent(v) && !ColorGiven(color)
    requires (m1 in v.intModules && m2 in v.intModules) || (m1 in v.extModules && m2 in v.extModules)
    requires v.importCount(m1.id) <= v.importCount(m2.id)
    requires NodeColor(v, m1, color, cmapName).Success?
    ensures NodeColor(v, m2, color, cmapName).Success?
    ensures NodeColor(v, m1, color, cmapName).value.position <= NodeColor(v, m2, color, cmapName).value.position
  {
    var n := ColorNorm(v, m1);
    assert m1.kind == m2.kind;
    NormalizeMonotone(n, v.importCount(m1.id) as real, v.importCount(m2.id) as real);
  }

  /** Without a given colour, the fewest imports of a kind are looked up at
      the start of the colour map and the most at its end. */
  lemma NodeColorEnds(v: ModuleVisualizer, m: Module, color: Option<string>, cmapName: string)
    requires Consistent(v) && !ColorGiven(color)
    requires NodeColor(v, m, color, cmapName).Success?
    requires m in v.intModules || m in v.extModules
    ensures v.importCount(m.id) as real == ColorNorm(v, m).lo ==> NodeColor(v, m, color, cmapName).value.position == 0.0
    ensures v.importCount(m.id) as real == ColorNorm(v, m).hi ==> NodeColor(v, m, color, cmapName).value.position == 1.0
  {
    NormalizeEndpoints(ColorNorm(v, m));
  }

  /** Without a given size, an internal node whose file has no more lines
      of code than another's is drawn no larger. */
  lemma NodeSizeMonotone(v: ModuleVisualizer, m1: Module, m2: Module, size: Option<real>)
    requires Consistent(v) && !SizeGiven(size)
    requires HasFile(v, m1) && HasFile(v, m2) && m1.kind == Internal && m2.kind == Internal
    requires Loc(v.repo.files[m1.file.value].content) <= Loc(v.repo.files[m2.file.value].content)
    requires NodeSize(v, m1, size).Success?
    ensures NodeSize(v, m2, size).Success?
    ensures NodeSize(v, m1, size).value <= NodeSize(v, m2, size).value
  {
    var l1 := Loc(v.repo.files[m1.file.value].content) as real;
    var l2 := Loc(v.repo.files[m2.file.value].content) as real;
    assert v.locSizeNorm.lo <= l1 <= v.locSizeNorm.hi;
    NormalizeMonotone(v.locSizeNorm, l1, l2);
  }

  /** Without a given size, the internal node of a file with the fewest
      lines of code is drawn at `0.2` and one with the most at `1`. */
  lemma NodeSizeEnds(v: ModuleVisualizer, m: Module, size: Option<real>)
    requires Consistent(v) && !SizeGiven(size)
    requires HasFile(v, m) && m.kind == Internal
    requires NodeSize(v, m, size).Success?
    ensures Loc(v.repo.files[m.file.value].content) as real == v.locSizeNorm.lo ==> NodeSize(v, m, size).value == MinNodeSize
    ensures Loc(v.repo.files[m.file.value].content) as real == v.locSizeNorm.hi ==> NodeSize(v, m, size).value == MaxNodeSize
  {
    NormalizeEndpoints(v.locSizeNorm);
  }

  /** The keyword arguments of `visualize` that decide the graph's contents;
      the output file, layout program, padding and extra graph attributes
      only reach graphviz. */
  datatype Options = Options(
    includeInternal: bool,
    intColor: Option<string>,
    intCmap: string,
    intSize: Option<real>,
    intXlabels: bool,
    includeExternal: bool,
    extColor: Option<string>,
    extCmap: string,
    extSize: Option<real>,
    extXlabels: bool,
    nodeSizeAdjuster: real,
    fontSize: real)

  /** The defaults of `visualize`. */
  const DefaultOptions: Options :=
    Options(true, None, "plasma", None, false, true, None, "plasma", None, false, 1.0, 14.0)

  datatype EdgeColor = Blue | Red

  /** A directed edge from an importing module to an imported one. */
  datatype Edge = Edge(source: string, target: string, color: EdgeColor)

  /** The nodes and edges `visualize` adds, in the order it adds them. */
  datatype Graph = Graph(nodes: seq<Node>, edges: seq<Edge>)

  /** Every internal module of the list names one of the repository's files. */
  predicate AllHaveFiles(v: ModuleVisualizer, ms: seq<Module>)
  {
    forall i :: 0 <= i < |ms| ==> HasFile(v, ms[i])
  }

  /** `_add_node` on each module of the list in turn, stopping at the first
      failure. */
  function AddNodes(v: ModuleVisualizer, ms: seq<Module>, color: Option<string>, cmapName: string,
                    size: Option<real>, sizeAdjuster: real, fontSize: real, xlabel: bool): (r: Result<seq<Node>, NormError>)
    requires AllHaveFiles(v, ms)
    ensures r.Failure? ==> r.error == DivisionByZero
    ensures r.Success? ==> |r.value| == |ms|
    ensures r.Success? ==> forall i :: 0 <= i < |ms| ==>
              AddNode(v, ms[i], color, cmapName, size, sizeAdjuster, fontSize, xlabel) == Success(r.value[i])
    ensures r.Failure? <==>
              exists i :: 0 <= i < |ms| && AddNode(v, ms[i], color, cmapName, size, sizeAdjuster, fontSize, xlabel).Failure?
  {
    if ms == [] then Success([])
    else
      var n :- AddNode(v, ms[0], color, cmapName, size, sizeAdjuster, fontSize, xlabel);
      var rest :- AddNodes(v, ms[1..], color, cmapName, size, sizeAdjuster, fontSize, xlabel);
      Success([n] + rest)
  }

  /** Whether an import of `m` is drawn in colour `c`: blue for an internal
      target when internal dependencies are included, red for an external
      target when external dependencies are included. */
  predicate Drawn(m: Module, c: EdgeColor, opts: Options)
  {
    || (c == Blue && m.kind == Internal && opts.includeInternal)
    || (c == Red && m.kind == External && opts.includeExternal)
  }

  /** The edges from one importing module to the modules it imports. */
  function ImportEdges(source: string, imports: seq<Module>, opts: Options): (es: seq<Edge>)
    ensures |es| <= |imports|
  {
    if imports == [] then []
    else
      var m := imports[0];
      (if m.kind == Internal && opts.includeInternal then [Edge(source, m.id, Blue)] else [])
      + (if m.kind == External && opts.includeExternal then [Edge(source, m.id, Red)] else [])
      + ImportEdges(source, imports[1..], opts)
  }

  /** An edge leaves `source` exactly when one of its imports is drawn in the
      edge's colour. */
  lemma {:induction false} ImportEdgesMembership(source: string, imports: seq<Module>, opts: Options, e: Edge)
    ensures e in ImportEdges(source, imports, opts) <==>
              e.source == source && exists j :: 0 <= j < |imports| && imports[j].id == e.target && Drawn(imports[j], e.color, opts)
  {
    if imports != [] {
      ImportEdgesMembership(source, imports[1..], opts, e);
      var tail := imports[1..];
      if e.source == source && exists j :: 0 <= j < |tail| && tail[j].id == e.target && Drawn(tail[j], e.color, opts) {
        var j :| 0 <= j < |tail| && tail[j].id == e.target && Drawn(tail[j], e.color, opts);
        assert imports[j + 1] == tail[j];
      }
      if e.source == source && exists j :: 0 <= j < |imports| && imports[j].id == e.target && Drawn(imports[j], e.color, opts) {
        var j :| 0 <= j < |imports| && imports[j].id == e.target && Drawn(imports[j], e.color, opts);
        if j > 0 {
          assert tail[j - 1] == imports[j];
        }
      }
    }
  }

  /** The edges of files `i` onwards, each file's edges leaving its module
      id, given as `ids[i]`. */
  function FileEdges(ids: seq<string>, imports: seq<seq<Module>>, opts: Options, i: nat): seq<Edge>
    requires i <= |ids| == |imports|
    decreases |ids| - i
  {
    if i == |ids| then []
    else ImportEdges(ids[i], imports[i], opts) + FileEdges(ids, imports, opts, i + 1)
  }

  /** An edge is drawn exactly when some file at `i` or later imports a
      module that is drawn in the edge's colour. */
  lemma {:induction false} FileEdgesMembership(ids: seq<string>, imports: seq<seq<Module>>, opts: Options, i: nat, e: Edge)
    requires i <= |ids| == |imports|
    ensures e in FileEdges(ids, imports, opts, i) <==>
              exists a :: i <= a < |ids| && e in ImportEdges(ids[a], imports[a], opts)
    decreases |ids| - i
  {
    if i < |ids| {
      FileEdgesMembership(ids, imports, opts, i + 1, e);
    }
  }

  /** The nodes of `visualize`: a node for every internal module, then one
      for every external module when external dependencies are included. */
  function DrawNodes(v: ModuleVisualizer, opts: Options): (r: Result<seq<Node>, NormError>)
    requires AllHaveFiles(v, v.intModules) && AllHaveFiles(v, v.extModules)
    ensures r.Failure? ==> r.error == DivisionByZero
    ensures r.Success? ==> |r.value| == |DrawnModules(v, opts)|
    ensures r.Success? ==> forall i :: 0 <= i < |r.value| ==>
              r.value[i].id == DrawnModules(v, opts)[i].id
              && (r.value[i].shape == Circle <==> DrawnModules(v, opts)[i].kind == Internal)
  {
    var intNodes :- AddNodes(v, v.intModules, opts.intColor, opts.intCmap, opts.intSize,
                             opts.nodeSizeAdjuster, opts.fontSize, opts.intXlabels);
    var extNodes :-
      if opts.includeExternal then
        AddNodes(v, v.extModules, opts.extColor, opts.extCmap, opts.extSize,
                 opts.nodeSizeAdjuster, opts.fontSize, opts.extXlabels)
      else Success([]);
    Success(intNodes + extNodes)
  }

  /** `visualize`: the nodes `DrawNodes` makes, and then an edge for every
      import of every file as `Drawn` decides. */
  function Visualize(v: ModuleVisualizer, opts: Options): (r: Result<Graph, NormError>)
    requires Consistent(v)
    ensures r.Failure? ==> r.error == DivisionByZero
  {
    ConsistentHasFiles(v);
    var nodes :- DrawNodes(v, opts);
    Success(Graph(nodes, FileEdges(ModuleIds(v.repo.files), v.repo.imports, opts, 0)))
  }

  /** Every module a consistent visualizer draws names its file if internal. */
  lemma ConsistentHasFiles(v: ModuleVisualizer)
    requires Consistent(v)
    ensures AllHaveFiles(v, v.intModules) && AllHaveFiles(v, v.extModules)
    ensures |ModuleIds(v.repo.files)| == |v.repo.imports|
  {
    forall i | 0 <= i < |v.intModules| ensures HasFile(v, v.intModules[i]) {
      var m := v.intModules[i];
      assert m in v.intModules;
      var k :| k in v.repo.store.entries && v.repo.store.entries[k] == m;
    }
    forall i | 0 <= i < |v.extModules| ensures HasFile(v, v.extModules[i]) {
      assert v.extModules[i] in v.extModules;
    }
  }

  /** The graph has a node for module id `k`. */
  predicate HasNode(g: Graph, k: string)
  {
    exists i :: 0 <= i < |g.nodes| && g.nodes[i].id == k
  }

  /** The modules `visualize` turns into nodes, in order: the internal ones,
      then the external ones when external dependencies are included. */
  function DrawnModules(v: ModuleVisualizer, opts: Options): seq<Module>
  {
    v.intModules + (if opts.includeExternal then v.extModules else [])
  }

  /** The drawn modules are exactly the stored internal modules, and the
      stored external ones when external dependencies are included. */
  lemma DrawnModulesAreStored(v: ModuleVisualizer, opts: Options)
    requires Consistent(v)
    ensures var ms := DrawnModules(v, opts);
            forall i :: 0 <= i < |ms| ==>
              ms[i].id in v.repo.store.entries && v.repo.store.entries[ms[i].id] == ms[i]
              && (ms[i].kind == Internal || opts.includeExternal)
    ensures var ms := DrawnModules(v, opts);
            forall k :: k in v.repo.store.entries && (v.repo.store.entries[k].kind == Internal || opts.includeExternal) ==>
              exists i :: 0 <= i < |ms| && ms[i].id == k
  {
    SplitIsStored(v.intModules, v.extModules, v.repo.store, opts.includeExternal);
  }

  /** The modules of two lists that split an id-matching store by kind,
      the second list only when `both` holds, are the store's modules of the
      first kind, or all of them. */
  lemma SplitIsStored(ints: seq<Module>, exts: seq<Module>, store: Store, both: bool)
    requires IdsMatch(store)
    requires forall m :: m in ints <==> m in store.entries.Values && m.kind == Internal
    requires forall m :: m in exts <==> m in store.entries.Values && m.kind == External
    ensures var ms := ints + (if both then exts else []);
            forall i :: 0 <= i < |ms| ==>
              ms[i].id in store.entries && store.entries[ms[i].id] == ms[i]
              && (ms[i].kind == Internal || both)
    ensures var ms := ints + (if both then exts else []);
            forall k :: k in store.entries && (store.entries[k].kind == Internal || both) ==>
              exists i :: 0 <= i < |ms| && ms[i].id == k
  {
    var ms := ints + (if both then exts else []);
    forall i | 0 <= i < |ms|
      ensures ms[i].id in store.entries && store.entries[ms[i].id] == ms[i]
      ensures ms[i].kind == Internal || both
    {
      if i < |ints| {
        assert ms[i] in ints;
      } else {
        assert ms[i] == exts[i - |ints|];
        assert ms[i] in exts;
      }
      var k :| k in store.entries && store.entries[k] == ms[i];
    }
    forall k | k in store.entries && (store.entries[k].kind == Internal || both)
      ensures exists i :: 0 <= i < |ms| && ms[i].id == k
    {
      var m := store.entries[k];
      assert m in store.entries.Values;
      if m.kind == Internal {
        assert m in ints;
        var i :| 0 <= i < |ints| && ints[i] == m;
        assert ms[i] == m;
      } else {
        assert m in exts;
        var i :| 0 <= i < |exts| && exts[i] == m;
        assert ms[|ints| + i] == m;
      }
    }
  }

  /** The nodes are exactly the internal modules of the store, and the
      external ones when external dependencies are included; circles are
      exactly the internal ones. */
  lemma VisualizeNodes(v: ModuleVisualizer, opts: Options)
    requires Consistent(v)
    requires Visualize(v, opts).Success?
    ensures var g := Visualize(v, opts).value;
            forall k :: HasNode(g, k) <==>
              k in v.repo.store.entries
              && (v.repo.store.entries[k].kind == Internal || opts.includeExternal)
    ensures var g := Visualize(v, opts).value;
            forall i :: 0 <= i < |g.nodes| ==>
              g.nodes[i].id in v.repo.store.entries
              && (g.nodes[i].shape == Circle <==> v.repo.store.entries[g.nodes[i].id].kind == Internal)
  {
    ConsistentHasFiles(v);
    DrawnModulesAreStored(v, opts);
    var g := Visualize(v, opts).value;
    assert g.nodes == DrawNodes(v, opts).value;
    NodesOfStore(g, DrawnModules(v, opts), v.repo.store, opts.includeExternal);
  }

  /** Nodes that follow a list of modules which are exactly the store's
      modules of the selected kinds are exactly the nodes of those modules. */
  lemma NodesOfStore(g: Graph, ms: seq<Module>, store: Store, both: bool)
    requires |g.nodes| == |ms|
    requires forall i :: 0 <= i < |ms| ==>
               g.nodes[i].id == ms[i].id && (g.nodes[i].shape == Circle <==> ms[i].kind == Internal)
    requires forall i :: 0 <= i < |ms| ==>
               ms[i].id in store.entries && store.entries[ms[i].id] == ms[i] && (ms[i].kind == Internal || both)
    requires forall k :: k in store.entries && (store.entries[k].kind == Internal || both) ==>
               exists i :: 0 <= i < |ms| && ms[i].id == k
    ensures forall k :: HasNode(g, k) <==> k in store.entries && (store.entries[k].kind == Internal || both)
    ensures forall i :: 0 <= i < |g.nodes| ==>
              g.nodes[i].id in store.entries
              && (g.nodes[i].shape == Circle <==> store.entries[g.nodes[i].id].kind == Internal)
  {
    forall k | k in store.entries && (store.entries[k].kind == Internal || both)
      ensures HasNode(g, k)
    {
      var i :| 0 <= i < |ms| && ms[i].id == k;
      assert g.nodes[i].id == k;
    }
  }

  /** An edge is drawn exactly when some file imports a module that `Drawn`
      selects in the edge's colour; the edge leaves the file's module id. */
  lemma VisualizeEdges(v: ModuleVisualizer, opts: Options, e: Edge)
    requires Consistent(v)
    requires Visualize(v, opts).Success?
    ensures e in Visualize(v, opts).value.edges <==>
              exists a, j :: 0 <= a < |v.repo.files| && 0 <= j < |v.repo.imports[a]|
                && e.source == ModuleId(v.repo.files[a])
                && e.target == v.repo.imports[a][j].id
                && Drawn(v.repo.imports[a][j], e.color, opts)
  {
    var files := v.repo.files;
    var imports := v.repo.imports;
    var ids := ModuleIds(files);
    FileEdgesMembership(ids, imports, opts, 0, e);
    forall a | 0 <= a < |files| {
      ImportEdgesMembership(ids[a], imports[a], opts, e);
    }
  }

  /** Both ends of every edge are nodes of the graph, so adding an edge never
      creates a node implicitly. */
  lemma EdgesBetweenNodes(v: ModuleVisualizer, opts: Options)
    requires Consistent(v)
    requires Visualize(v, opts).Success?
    ensures var g := Visualize(v, opts).value;
            forall e :: e in g.edges ==> HasNode(g, e.source) && HasNode(g, e.target)
  {
    var g := Visualize(v, opts).value;
    var store := v.repo.store;
    VisualizeNodes(v, opts);
    forall e | e in g.edges ensures HasNode(g, e.source) && HasNode(g, e.target) {
      VisualizeEdges(v, opts, e);
      var a, j :| 0 <= a < |v.repo.files| && 0 <= j < |v.repo.imports[a]|
                  && e.source == ModuleId(v.repo.files[a])
                  && e.target == v.repo.imports[a][j].id
                  && Drawn(v.repo.imports[a][j], e.color, opts);
      assert ModuleIds(v.repo.files)[a] == e.source;
      assert e.source in store.entries && store.entries[e.source].kind == Internal;
    }
  }

  /** The two lists of a consistent visualizer hold modules of their own kind. */
  lemma ConsistentKinds(v: ModuleVisualizer)
    requires Consistent(v)
    ensures forall i :: 0 <= i < |v.intModules| ==> v.intModules[i].kind == Internal
    ensures forall i :: 0 <= i < |v.extModules| ==> v.extModules[i].kind == External
  {
    forall i | 0 <= i < |v.intModules| ensures v.intModules[i].kind == Internal {
      assert v.intModules[i] in v.intModules;
    }
    forall i | 0 <= i < |v.extModules| ensures v.extModules[i].kind == External {
      assert v.extModules[i] in v.extModules;
    }
  }

  /** Adding the nodes of a non-empty list fails exactly when adding any one
      of them would, when all of them agree on that. */
  lemma AddNodesFailUniformly(v: ModuleVisualizer, ms: seq<Module>, color: Option<string>, cmapName: string,
                              size: Option<real>, sizeAdjuster: real, fontSize: real, xlabel: bool, fails: bool)
    requires AllHaveFiles(v, ms) && ms != []
    requires forall i :: 0 <= i < |ms| ==>
               (AddNode(v, ms[i], color, cmapName, size, sizeAdjuster, fontSize, xlabel).Failure? <==> fails)
    ensures AddNodes(v, ms, color, cmapName, size, sizeAdjuster, fontSize, xlabel).Failure? <==> fails
  {
    assert AddNode(v, ms[0], color, cmapName, size, sizeAdjuster, fontSize, xlabel).Failure? <==> fails;
  }

  /** Without a given colour or size, `visualize` raises `ZeroDivisionError`
      exactly when a normalizer in use is degenerate: the internal colour
      normalizer, the size normalizer, or, when external dependencies are
      drawn, the external colour normalizer. `VisualizeFailsOnEqualSamples`
      states this in terms of the samples. */
  lemma VisualizeFails(v: ModuleVisualizer, opts: Options)
    requires Consistent(v) && v.intModules != [] && v.extModules != []
    requires !ColorGiven(opts.intColor) && !SizeGiven(opts.intSize) && !ColorGiven(opts.extColor)
    ensures Visualize(v, opts).Failure? <==>
              || Degenerate(v.colorNormInt)
              || Degenerate(v.locSizeNorm)
              || (opts.includeExternal && Degenerate(v.colorNormExt))
  {
    ConsistentHasFiles(v);
    ConsistentKinds(v);
    var intFails := Degenerate(v.colorNormInt) || Degenerate(v.locSizeNorm);
    AddNodesFailUniformly(v, v.intModules, opts.intColor, opts.intCmap, opts.intSize,
                          opts.nodeSizeAdjuster, opts.fontSize, opts.intXlabels, intFails);
    AddNodesFailUniformly(v, v.extModules, opts.extColor, opts.extCmap, opts.extSize,
                          opts.nodeSizeAdjuster, opts.fontSize, opts.extXlabels, Degenerate(v.colorNormExt));
    assert Visualize(v, opts).Failure? <==> DrawNodes(v, opts).Failure?;
  }

  /** All modules of the list share one import count. */
  predicate SameCounts(ms: seq<Module>, importCount: string -> int)
  {
    forall i, j :: 0 <= i < |ms| && 0 <= j < |ms| ==> importCount(ms[i].id) == importCount(ms[j].id)
  }

  /** All files share one line count. */
  predicate SameLocs(files: seq<SourceFile>)
  {
    forall i, j :: 0 <= i < |files| && 0 <= j < |files| ==> Loc(files[i].content) == Loc(files[j].content)
  }

  /** A colour normalizer built from the modules' counts is degenerate
      exactly when they all share one count. */
  lemma CountsDegenerate(ms: seq<Module>, importCount: string -> int, n: Normalizer)
    requires MakeNormalizer(ImportCounts(ms, importCount), 0.0, 1.0) == Success(n)
    ensures ms != []
    ensures Degenerate(n) <==> SameCounts(ms, importCount)
  {
    var data := ImportCounts(ms, importCount);
    SamplesInRange(data, 0.0, 1.0);
    if SameCounts(ms, importCount) {
      forall i, j | 0 <= i < |data| && 0 <= j < |data| ensures data[i] == data[j] {
        assert importCount(ms[i].id) == importCount(ms[j].id);
      }
    } else {
      var i, j :| 0 <= i < |ms| && 0 <= j < |ms| && importCount(ms[i].id) != importCount(ms[j].id);
      assert data[i] != data[j];
    }
  }

  /** The size normalizer built from the files' line counts is degenerate
      exactly when they all share one count. */
  lemma LocsDegenerate(files: seq<SourceFile>, n: Normalizer)
    requires MakeNormalizer(Locs(files), MinNodeSize, MaxNodeSize) == Success(n)
    ensures Degenerate(n) <==> SameLocs(files)
  {
    var data := Locs(files);
    SamplesInRange(data, MinNodeSize, MaxNodeSize);
    if SameLocs(files) {
      forall i, j | 0 <= i < |data| && 0 <= j < |data| ensures data[i] == data[j] {
        var li, lj := Loc(files[i].content), Loc(files[j].content);
        assert li == lj;
        assert data[i] == li as real && data[j] == lj as real;
      }
    } else {
      var i, j :| 0 <= i < |files| && 0 <= j < |files| && Loc(files[i].content) != Loc(files[j].content);
      var li, lj := Loc(files[i].content), Loc(files[j].content);
      assert data[i] == li as real && data[j] == lj as real;
    }
  }

  /** For a visualizer built from a loaded repository, without a given
      colour or size, `visualize` raises `ZeroDivisionError` exactly when all
      internal modules share one import count, all files share one line
      count, or external dependencies are drawn and all external modules
      share one import count. */
  lemma VisualizeFailsOnEqualSamples(repo: LoadedRepo, importCount: string -> int, opts: Options)
    requires WellFormed(repo)
    requires MakeVisualizer(repo, importCount).Success?
    requires !ColorGiven(opts.intColor) && !SizeGiven(opts.intSize) && !ColorGiven(opts.extColor)
    ensures var v := MakeVisualizer(repo, importCount).value;
            && Consistent(v)
            && (Visualize(v, opts).Failure? <==>
                  || SameCounts(v.intModules, importCount)
                  || SameLocs(repo.files)
                  || (opts.includeExternal && SameCounts(v.extModules, importCount)))
  {
    var v := MakeVisualizer(repo, importCount).value;
    MakeVisualizerConsistent(repo, importCount);
    MakeVisualizerFields(repo, importCount);
    CountsDegenerate(v.intModules, importCount, v.colorNormInt);
    LocsDegenerate(repo.files, v.locSizeNorm);
    CountsDegenerate(v.extModules, importCount, v.colorNormExt);
    VisualizeFails(v, opts);
  }

  /** A repository with a single external module cannot be drawn with the
      default options: that module's count is both bounds of the external
      colour normalizer. */
  lemma VisualizeFailsOnOneExternal(repo: LoadedRepo, importCount: string -> int)
    requires WellFormed(repo)
    requires MakeVisualizer(repo, importCount).Success?
    requires |MakeVisualizer(repo, importCount).value.extModules| == 1
    ensures var v := MakeVisualizer(repo, importCount).value;
            && Consistent(v)
            && Visualize(v, DefaultOptions) == Failure(DivisionByZero)
  {
    var v := MakeVisualizer(repo, importCount).value;
    MakeVisualizerConsistent(repo, importCount);
    OneExternalDegenerate(repo, importCount);
    VisualizeFails(v, DefaultOptions);
  }

  /** The colour normalizer of a single external module is degenerate. */
  lemma OneExternalDegenerate(repo: LoadedRepo, importCount: string -> int)
    requires Valid(repo.store)
    requires MakeVisualizer(repo, importCount).Success?
    requires |MakeVisualizer(repo, importCount).value.extModules| == 1
    ensures var v := MakeVisualizer(repo, importCount).value;
            v.intModules != [] && v.extModules != [] && Degenerate(v.colorNormExt)
  {
    var v := MakeVisualizer(repo, importCount).value;
    MakeVisualizerFields(repo, importCount);
    CountsDegenerate(v.intModules, importCount, v.colorNormInt);
    OneCountDegenerate(v.extModules, importCount, v.colorNormExt);
  }

  /** A colour normalizer built from one module's count is degenerate. */
  lemma OneCountDegenerate(ms: seq<Module>, importCount: string -> int, n: Normalizer)
    requires |ms| == 1
    requires MakeNormalizer(ImportCounts(ms, importCount), 0.0, 1.0) == Success(n)
    ensures Degenerate(n)
  {
    CountsDegenerate(ms, importCount, n);
    assert SameCounts(ms, importCount);
  }

  /** With a colour given for external nodes, `visualize` fails exactly when
      a normalizer the internal nodes use is degenerate: external nodes then
      need neither a colour lookup nor a line count. */
  lemma VisualizeWithExtColor(v: ModuleVisualizer, opts: Options)
    requires Consistent(v) && v.intModules != []
    requires !ColorGiven(opts.intColor) && !SizeGiven(opts.intSize) && ColorGiven(opts.extColor)
    ensures Visualize(v, opts).Success? <==> !Degenerate(v.colorNormInt) && !Degenerate(v.locSizeNorm)
  {
    ConsistentHasFiles(v);
    ConsistentKinds(v);
    var intFails := Degenerate(v.colorNormInt) || Degenerate(v.locSizeNorm);
    AddNodesFailUniformly(v, v.intModules, opts.intColor, opts.intCmap, opts.intSize,
                          opts.nodeSizeAdjuster, opts.fontSize, opts.intXlabels, intFails);
    if v.extModules != [] {
      AddNodesFailUniformly(v, v.extModules, opts.extColor, opts.extCmap, opts.extSize,
                            opts.nodeSizeAdjuster, opts.fontSize, opts.extXlabels, false);
    }
    assert Visualize(v, opts).Failure? <==> DrawNodes(v, opts).Failure?;
  }

  /** For a visualizer built from a loaded repository, with a colour given
      for external nodes, `visualize` succeeds exactly when the internal
      modules' import counts differ somewhere and the files' line counts
      differ somewhere; the graph's edges are then those of the edge loop. */
  lemma VisualizeOnDistinctSamples(repo: LoadedRepo, importCount: string -> int, opts: Options)
    requires WellFormed(repo)
    requires MakeVisualizer(repo, importCount).Success?
    requires !ColorGiven(opts.intColor) && !SizeGiven(opts.intSize) && ColorGiven(opts.extColor)
    ensures var v := MakeVisualizer(repo, importCount).value;
            && Consistent(v)
            && (Visualize(v, opts).Success? <==> !SameCounts(v.intModules, importCount) && !SameLocs(repo.files))
            && (Visualize(v, opts).Success? ==>
                  Visualize(v, opts).value.edges == FileEdges(ModuleIds(repo.files), repo.imports, opts, 0))
  {
    var v := MakeVisualizer(repo, importCount).value;
    MakeVisualizerConsistent(repo, importCount);
    MakeVisualizerFields(repo, importCount);
    CountsDegenerate(v.intModules, importCount, v.colorNormInt);
    LocsDegenerate(repo.files, v.locSizeNorm);
    VisualizeWithExtColor(v, opts);
  }
}

=== FILE: wrappers.dfy ===
/** Option and Result, the failure-compatible wrappers the rest of the model uses
    in place of Python's `None` and raised exceptions. */
module Wrappers {

  datatype Option<+T> = None | Some(value: T)

  /** A computation that either produced `value` or stopped with `error`. */
  datatype Result<+T, +E> = Success(value: T) | Failure(error: E) {

    predicate IsFailure() {
      Failure?
    }

    function PropagateFailure<U>(): Result<U, E>
      requires Failure?
    {
      Failure(error)
    }

    function Extract(): T
      requires Success?
    {
      value
    }
  }
}
